=== FILE: README.md ===
# Tasking: a Dafny model of a hierarchical task DSL

This project models the core of `tasking`, a Ruby DSL. The DSL declares
tasks under `::`-separated namespaces and gives them layered options. It
runs each task between lists of before and after filter tasks. The model
covers:

- `Tasking::Options`: option maps with a right-biased merge and lazily
  evaluated values (`options.dfy`);
- the `::` path handling behind `rpartition`, `split` and the
  namespace-prefix walk (`paths.dfy`);
- `Tasking::Task` as a value with its filter lists (`tasks.dfy`);
- `Tasking::Namespace` and its class-level registry, made an explicit
  `Registry` value (`namespaces.dfy`);
- `Task#execute`: filter chains, body and lazy resolution, with a trace of
  abstract body events (`execution.dfy`);
- the `Tasking` mixin itself as an `Engine` state. It covers `task`,
  `namespace`, `options`, the deferred `before`/`after` queue and its
  one-shot drain, `task_lookup`, `gather_options_for` and `execute`.
  Namespace blocks are scripts of DSL statements run by an interpreter
  (`engine.dfy`);
- the documented examples, stated for arbitrary names and values and
  proved from the general lemmas (`scenarios.dfy`).

A failing call (Ruby `abort`, or a method called on `nil`) is an `Error`
value. It ends the program, so the engine state after it is not used.

Task and filter bodies are abstract. A body records an `Event` holding:

- the task's qualified name;
- the resolved options it receives;
- the namespace stack at that moment.

A deferred option value is `Lazy(id)`. A `Resolver` parameter says what it
computes from the whole map.

Filter chains may form cycles, which the source does not reject. Their
recursion is bounded by a `fuel` parameter. Running out of fuel is the
`StackTooDeep` error, which stands for Ruby's `SystemStackError`.

The model follows the code in these places:

- Option gathering walks the namespace prefixes of the name as passed to
  `execute`, after one leading `::` is stripped. It does not walk the
  resolved task's own namespace. A visited prefix that is not a namespace
  fails, as calling `options` on `nil` does.
- Filters are looked up by absolute name only (`Task#task_lookup`). They
  are not resolved relative to the owning task's namespace first.
- A filter receives the owner's unresolved merged map, with the filter's
  own task options merged underneath it. Filters do not gather namespace
  options and do not push a scope.
- `before`, `after` and `options` fail while the namespace stack is still
  `nil`, that is, before any `namespace` or `execute` call. `options`
  also fails on an empty stack, outside every namespace block, where
  `last` is `nil` as well.
- The unknown-task message adds the qualified form whenever the namespace
  stack is non-empty, even for an absolute name. It uses the name with its
  leading `::` already stripped.

## Model

| member | source | states |
|---|---|---|
| Paths.StripSep | lib/tasking.rb:103-104 | One leading `::` is removed exactly when the name starts with it; any other name is unchanged. |
| Paths.LastSepSpec | lib/tasking.rb:155-159 | The position `rpartition` cuts at is a `::`, and no `::` starts after it. |
| Paths.RPartitionSpec | lib/tasking.rb:155-159 | A name with a `::` is the namespace part, `::` and the task part; the task part holds no `::`. A name without `::` has an empty namespace part. |
| Paths.RPartitionAppend | lib/tasking/namespace.rb:27-31 | `rpartition` splits `a::b` back into `a` and `b` for any simple name `b`. |
| Paths.RPartitionJoin | lib/tasking.rb:155-159 | On a well-formed path the split is at the last segment; a single segment has an empty namespace part. |
| Paths.SplitJoin | lib/tasking.rb:117 | `split('::')` inverts joining on well-formed paths. |
| Paths.WalkNamespaceTree | lib/tasking.rb:116-130 | The loop yields the cumulative prefixes of the segments from left to right, without the last segment in task mode. |
| Paths.WalkPath | lib/tasking.rb:116-130 | On a well-formed path the walk visits every prefix, ending with the path itself; task mode stops one segment short. |
| Paths.WalkTaskName | lib/tasking.rb:135 | In task mode the walk over `n::k` visits `n` only. |
| Paths.WalkReachesPrefixes | lib/tasking.rb:149-153 | Whatever holds every walked name holds every prefix of the path. |
| Options.Merge | lib/tasking/options.rb:23-26 | The keys of both maps are kept; shared keys take the new value, the other keys keep theirs. |
| Options.LayeredLatestWins | lib/tasking.rb:132-141 | A layering of maps holds exactly the keys of its tiers; each key takes its value from the last tier holding it. |
| Options.Materialize | lib/tasking/task.rb:32-34 | The same keys; literals are kept and each deferred value is applied to the whole unresolved map. |
| Options.Build | lib/tasking/options.rb:5-9 | An `Options` passes through unchanged, and a hash is wrapped. |
| Options.BuildIdempotent | lib/tasking/options.rb:5-9 | Building from an already built set returns it unchanged. |
| Options.MergeSet | lib/tasking/options.rb:19-21 | A new set whose keys from the argument win; the receiver is a value and stays unchanged. |
| Options.MergeInPlace | lib/tasking/options.rb:23-26 | The receiver's new value and the returned object are the same set, equal to what `merge` returns. |
| Options.Get | lib/tasking/options.rb:15-17 | A missing key gives `nil`; a literal is returned as is; a deferred value is applied to the whole set. |
| Options.Equal | lib/tasking/options.rb:28-30 | Equal exactly when the receiver is the set `build` makes of the argument, so a set and its own hash compare equal. |
| Options.MaterializedHash | lib/tasking/options.rb:32-36 | The same keys; literals are unchanged and deferred values are applied to the whole set. |
| Options.GetAgreesWithMaterialized | lib/tasking/options.rb:15-17 | `[]` agrees with `materialized_hash` key by key, and gives `nil` for a missing key. |
| Options.SetAndHashArgumentsAgree | lib/tasking/options.rb:44-46 | `merge`, `merge!` and `==` give the same answer for an `Options` argument and for its raw hash. |
| Tasks.NewTask | lib/tasking/task.rb:6-13 | A new task has the given name, namespace, options and body, and empty filter lists. |
| Tasks.AddFilters | lib/tasking/task.rb:15-21 | The flattened names are appended to that kind's list; the other list and the task's identity are unchanged. |
| Tasks.AddFiltersTwice | lib/tasking/task.rb:15-21 | Two calls append as one call with the arguments concatenated in call order. |
| Tasks.FlattenNames | lib/tasking/task.rb:16 | Flattening plain names gives the names back, so flattening again changes nothing. |
| Namespaces.NewNamespace | lib/tasking/namespace.rb:37-43 | A new namespace has the given name, no tasks, and options equal to the given map. |
| Namespaces.RegisterTask | lib/tasking/namespace.rb:64-66 | The task is stored under its name, replacing any task of that name; other tasks are unchanged. |
| Namespaces.UnregisterTask | lib/tasking/namespace.rb:68-70 | Exactly the task's name is removed, and the other tasks are unchanged. |
| Namespaces.UnregisterUndoesRegister | lib/tasking/namespace.rb:64-70 | Unregistering a task just registered under a fresh name restores the namespace. |
| Namespaces.FindTaskIn | lib/tasking/namespace.rb:72-74 | The task stored under the name, or nothing when there is none. |
| Namespaces.FindRegistered | lib/tasking/namespace.rb:64-74 | After registering, the new task is found under its name and every other name finds what it found before. |
| Namespaces.MergeOptions | lib/tasking/namespace.rb:60-62 | New keys are added, shared keys take the new value, and other keys and the tasks are kept. |
| Namespaces.ExecuteNamespace | lib/tasking/namespace.rb:55-58 | Entering a namespace merges the given options over its own, like `merge_options`. |
| Namespaces.ExecuteNamespaceIdempotent | lib/tasking/namespace.rb:55-58 | Re-entering with the same options changes nothing more. |
| Namespaces.FindNamespace | lib/tasking/namespace.rb:18-20 | The registered namespace of that name, or nothing. |
| Namespaces.FindTaskInNamespace | lib/tasking/namespace.rb:22-25 | Absent when the namespace or the task is absent; otherwise the stored task. |
| Namespaces.FindTask | lib/tasking/namespace.rb:27-31 | Absent when the part before the last `::` is not a namespace; a found task is stored under the part after it. |
| Namespaces.FindTaskQualified | lib/tasking/namespace.rb:27-31 | `find_task(n::k)` equals `find_task_in_namespace(n, k)` for a simple name `k`. |
| Namespaces.FindTaskFindsRegistered | lib/tasking/namespace.rb:27-31 | A registered task is found under its qualified name. |
| Namespaces.FindTaskNeedsSep | lib/tasking/namespace.rb:27-31 | A name without `::` finds no task, because the empty namespace holds none. |
| Namespaces.AddNamespace | lib/tasking/namespace.rb:14-16 | The namespace is stored under its own name, and the others are unchanged. |
| Namespaces.FindOrCreate | lib/tasking/namespace.rb:33-35 | An existing namespace is returned untouched, and the options are ignored. Otherwise a new, empty namespace with those options is registered. No other entry changes. |
| Namespaces.FindOrCreateTwice | lib/tasking/namespace.rb:33-35 | A second call returns the same namespace and registry, so a name never gets two entries. |
| Namespaces.All | lib/tasking/namespace.rb:10-12 | Exactly the registered namespaces. |
| Namespaces.AllMatchesFind | lib/tasking/namespace.rb:10-20 | On a well-formed registry, `all` holds a namespace exactly when `find_namespace` finds it by its name. |
| Namespaces.ParentNamespace | lib/tasking/namespace.rb:49-53 | `nil` for a name without `::` or with an empty part before the last `::`; otherwise exactly the registry's entry for that part, `nil` when it is not registered. |
| Namespaces.ParentOfPath | lib/tasking/namespace.rb:49-53 | For a well-formed path: a single segment has no parent; a longer path's parent is the path minus its last segment. |
| Namespaces.RegisterKeepsWF | lib/tasking/namespace.rb:64-66 | Registering a task under its simple name in its own namespace keeps the registry well formed. |
| Execution.FilterLookup | lib/tasking/task.rb:44-47 | One leading `::` is stripped, and the rest is resolved as an absolute name only. |
| Execution.ExecuteTask | lib/tasking/task.rb:23-28 | Every body records the scope it was given. Each literal passed in reaches every body unchanged. Running out of fuel is the deep-stack error. |
| Execution.RunChain | lib/tasking/task.rb:36-42 | Every filter's body sees the chain's literal options and scope. |
| Execution.LeafChain | lib/tasking/task.rb:36-42 | A chain of leaf filters records one event per filter, in list order, each with the chain's map under the filter's own options. |
| Execution.FilterOrder | lib/tasking/task.rb:23-28 | For a task with a body whose filters are leaf tasks (each with a body and no filters of its own): before filters in order, then the body with the resolved merged map, then after filters in order. Every filter gets the unresolved merged map. |
| Execution.ChainStopsAtUnknown | lib/tasking/task.rb:36-42 | An unknown filter stops the chain after the filters before it. The error names the stripped filter and the owner, and nothing after it runs. |
| Execution.UnknownBeforeFilterSkipsBody | lib/tasking/task.rb:25-27 | An unknown before filter fails the task; its body and after filters never run. |
| Engine.Enqueue | lib/tasking.rb:54-57 | The call is appended to its kind's queue, the other queue is unchanged, and the kind is recorded once in first-use order. |
| Engine.FullyQualifiedName | lib/tasking.rb:143-147 | Outside a namespace the name is unchanged. Inside one it is the innermost namespace's name, `::` and the name, and `rpartition` splits a simple name back off. |
| Engine.BuildNamespaceHierarchy | lib/tasking.rb:149-153 | Every walked prefix exists afterwards. Existing namespaces are untouched, and the new ones are empty prefixes. |
| Engine.BuildHierarchyOnPath | lib/tasking.rb:149-153 | On a well-formed path every prefix of the path is registered afterwards. |
| Engine.DeclareTask | lib/tasking.rb:4-17 | An empty name fails. A qualified name without a namespace part fails. Otherwise the new task, with empty filters, is stored under its simple name in its namespace. |
| Engine.DeclareTaskOnPath | lib/tasking.rb:7-16 | For `n::k` on a well-formed path: every prefix of `n` exists, the new task is found under `n::k`, and every other task is unchanged. |
| Engine.OpenNamespace | lib/tasking.rb:19-29 | Fails exactly on an empty name. Otherwise the ancestors exist and the namespace is pushed. Its options are its old ones, or none, with the given ones merged over them; its tasks and all other namespaces are unchanged. |
| Engine.OpenNamespaceOnPath | lib/tasking.rb:23-27 | For `n::m` on a well-formed path, every prefix of `n` and `n::m` itself are registered. |
| Engine.CloseNamespace | lib/tasking.rb:30 | Exactly the innermost namespace is popped, and nothing else changes. |
| Engine.SetOptions | lib/tasking.rb:33-35 | Fails while there is no enclosing namespace. Otherwise only the innermost namespace changes, by a right-biased merge of its options. |
| Engine.SetOptionsInsideNamespace | lib/tasking.rb:33-35 | Inside a namespace of a well-formed engine, `options` succeeds. |
| Engine.Defer | lib/tasking.rb:53-65 | Only appends (target, enclosing namespace or "", flattened filters) to its kind's queue. The registry is untouched. It fails only while the stack is `nil`. |
| Engine.LocateTarget | lib/tasking.rb:38-39 | The target is tried in the recorded namespace first, then by `find_task` on the target as written. |
| Engine.LateAttach | lib/tasking.rb:37-51 | An unknown target fails naming it. Otherwise only the located task changes: the filters are appended to that kind's list and its other list is kept. |
| Engine.AttachedStable | lib/tasking.rb:37-51 | Attaching filters never changes which task a deferred call locates. |
| Engine.AttachedAppend | lib/tasking.rb:69-73 | What two queues attach one after the other is what their concatenation attaches. |
| Engine.KindAppendedTrans | lib/tasking.rb:69-73 | Two drains in a row append both queues' filters, each located in the registry as it stood before both. |
| Engine.LateAttachAppends | lib/tasking.rb:37-51 | One call appends its filters to the task it locates; no other list of any task changes. |
| Engine.AttachAllAppends | lib/tasking.rb:70-72 | Draining one kind's queue appends to every task's list of that kind the filters of the calls that locate it, in call order; the other kind's lists are kept. |
| Engine.DrainKindsAppends | lib/tasking.rb:69-73 | Draining distinct kinds appends each kind's queue to that kind's lists once, and nothing for a kind not drained. |
| Engine.AttachAll | lib/tasking.rb:37-73 | A queue drains call by call; a failure names the first call, in queue order, whose target cannot be located, all calls before it being locatable. |
| Engine.AttachAllSucceedsIff | lib/tasking.rb:69-73 | One kind's queue drains without error exactly when every target in it can be located beforehand. |
| Engine.DrainKindsSucceedsIff | lib/tasking.rb:69-73 | Draining several kinds succeeds exactly when every target of their queues can be located beforehand. |
| Engine.DrainKinds | lib/tasking.rb:67-74 | Kinds drain in the given order; a failure names the first unlocatable call of the first kind whose queue holds one, every queue before it being fully locatable. |
| Engine.LateEvaluations | lib/tasking.rb:67-74 | A failure names, with its kind, the first queued call in drain order (kinds in first-use order, calls in call order) whose target cannot be located. A success keeps every namespace and task, and each task's list of each kind becomes its old list followed by the filters of that kind's queued calls whose target locates it, in call order. |
| Engine.LateEvaluationsSucceedIff | lib/tasking.rb:67-74 | The drain succeeds exactly when every queued target can be located in the registry as it was before the drain. |
| Engine.TaskLookup | lib/tasking.rb:99-114 | The first candidate that names a task wins: only the stripped name for an absolute name, otherwise `top::name` before `name`. |
| Engine.AbsoluteLookupIgnoresScope | lib/tasking.rb:103-106 | An absolute name finds the same task whatever the enclosing namespaces are. |
| Engine.MergeNamespaces | lib/tasking.rb:135-138 | Succeeds exactly when every walked name is a namespace. The result layers their options in walk order; a failure names a missing namespace. |
| Engine.GatherOptionsFor | lib/tasking.rb:132-141 | The walked namespaces' options, outermost first, then the task's options, each merged over the ones before. |
| Engine.CallOptions | lib/tasking.rb:89-90 | The gathered options with the call's options as the last tier. |
| Engine.Execute | lib/tasking.rb:76-94 | Deferred calls are drained only on the first execution. A failed drain is the result, and a successful one's registry is kept. The stack ends where it started. Every body runs with one more namespace on it. |
| Engine.LookUpAndRun | lib/tasking.rb:81-93 | An unknown name fails with the stripped name, adding its qualified form exactly when the stack is non-empty. Bodies run with the found task's own namespace pushed on the caller's stack. |
| Engine.LookUpLayersOptions | lib/tasking.rb:81-93 | A found task with a body and leaf filters runs without error: its before filters, its body and its after filters in order, all seeing the walked namespaces' options, then the task's, then the call's, each tier overriding the ones before; the body sees them resolved. |
| Engine.ExecuteLayersOptions | lib/tasking.rb:76-93 | The same precedence through `execute`, on the first execution as on later ones, for a task with a body and leaf filters: the namespace tiers are those of the registry before the drain, and the task and its filters are the ones found after it. |
| Engine.FirstExecuteAttachesDeferred | lib/tasking.rb:67-80 | When every queued target can be located, the first execution attaches the whole queue. Each task's list of each kind gains the filters of that kind's calls that locate it, in call order. Targets are located in the registry as it stands at that moment, so they may have been declared after the call. |
| Engine.LateEvaluationsRunOnce | lib/tasking.rb:77-80 | A call deferred after the first execution is never attached. |
| Engine.DeclareNamespace | lib/tasking.rb:19-31 | An empty name fails with nothing changed. A completed block leaves the stack as it found it, keeps every registered name, and leaves the qualified namespace and all its ancestors registered. What the block's statements do is stated by `NamespaceBlockDeclaresTask` and `NamespaceBlockSetsOptions`. |
| Engine.RunStmt | lib/tasking/namespace.rb:55-58 | A statement of a block that completes leaves the stack as it found it and keeps every registered name; `RunScriptSingle` and the two block lemmas state that it takes effect. |
| Engine.RunScript | lib/tasking/namespace.rb:55-58 | A block whose statements all complete leaves the stack as it found it and keeps every registered name; `RunScriptAppend` states that the statements run in order. |
| Engine.RunScriptSingle | lib/tasking/namespace.rb:55-58 | A block of one statement does exactly what that statement does. |
| Engine.RunScriptAppend | lib/tasking/namespace.rb:55-58 | The second part of a block runs from the state the first part leaves, the bodies run follow one another, and a failure in the first part ends the block. |
| Engine.NamespaceBlockDeclaresTask | lib/tasking.rb:4-31 | A `task` inside a `namespace` block, at any depth of nesting and also when the namespace is reopened, declares the task in that namespace, under the namespace's full name. |
| Engine.NamespaceBlockSetsOptions | lib/tasking.rb:19-35 | An `options` call inside a `namespace` block merges into that namespace, over the options the block was opened with. |
| Engine.EmptyNamespaceBlock | lib/tasking.rb:19-31 | A block-less namespace exists afterwards with the given options merged over its old ones, and the stack is restored. |
| Engine.ReopenMergesOptions | spec/lib/tasking_spec.rb:510-517 | Opening a namespace again merges the new options over the first ones under the same single entry. |
| Engine.DeclareTaskKeepsWF | lib/tasking.rb:4-17 | `task` keeps the engine well formed. |
| Engine.OpenNamespaceKeepsWF | lib/tasking.rb:19-29 | Opening a namespace keeps the engine well formed. |
| Engine.ExecuteKeepsWF | lib/tasking.rb:76-94 | `execute` keeps the engine well formed. |
| Engine.ProgramKeepsWF | lib/tasking.rb:4-94 | Any program run from a fresh engine ends well formed. Every namespace on the stack is registered, each namespace and task is stored under its own name, and the empty name holds no tasks. |
| Scenarios.PrecedenceExample | spec/lib/tasking_spec.rb:192-263 | Across outer namespace, inner namespace, task and call, each key ends with the value of the last tier setting it. |
| Scenarios.RelativeFirst | spec/lib/tasking_spec.rb:301-304 | Inside `o`, `i::m` finds `o::i::m` although `i::m` exists too. |
| Scenarios.AbsoluteFallback | spec/lib/tasking_spec.rb:306-309 | Inside `o`, `i::x` falls back to the absolute `i::x` when `o::i::x` is absent. |
| Scenarios.AbsoluteMarker | spec/lib/tasking_spec.rb:311-314 | Inside `o`, `::i::m` finds the absolute `i::m` and not `o::i::m`. |
| Scenarios.GatherWalksCallName | lib/tasking.rb:89 | The relative call `i::m` inside `o` runs `o::i::m` but gathers the options of namespace `i` only. |
| Scenarios.FlattenExample | spec/lib/tasking_spec.rb:37-41 | Filter names given singly and as nested arrays are flattened in order. |

## Left out

- Execution.FilterOrder: the event order is stated for leaf filters only. A filter that has filters of its own runs them recursively (lib/tasking/task.rb:40), and `ExecuteTask` models that recursion with fuel; no lemma spells out the nested order. The same restriction carries over to `Engine.LookUpLayersOptions` and `Engine.ExecuteLayersOptions`.
- The legacy `Tasker` prototype (`lib/tasker.rb` and `lib/tasker/`) is not part of this model. It is not loaded by the current engine.
- Process exit: `abort` and crashes on `nil` become `Error` values. The stack pop that a real failure would skip does not matter, because a failure is final.
- Task bodies and lambdas are abstract. A body records an event, and a deferred value's result comes from the `Resolver` parameter. Nested `execute` calls made from inside a body are not modelled.
- `slice!` mutates the caller's string in place. It is modelled as a pure strip of one leading `::`; the stripped name is what the messages use.
- Execution.FilterLookup: strips the name as stored on every run. In the source, `task_lookup` (lib/tasking/task.rb:45) strips the string held in the task's filter list itself, so a later execution of the same task strips again. The model differs only for a filter name starting with `::::`, which it strips once on every run.
- Options.Build: a hash is modelled as a value. In the source, `build` wraps the caller's hash without copying it (lib/tasking/options.rb:5-13) and `Namespace.new` keeps it (lib/tasking/namespace.rb:40). `merge!` then changes that hash in place (lib/tasking/namespace.rb:56, 61). Namespaces created from one hash object, and the caller holding it, therefore share later option changes. The model gives each namespace its own map.
- `Namespace.all` returns the values in insertion order; the model returns them as a set.
- `Namespace#tasks` (the task list as an array) is not modelled separately; the task map is the namespace's `tasks` field.
- Ruby's `split('::')` is modelled in full. The lemmas that relate it to joining assume non-empty segments without colons.
- ExecuteTask: the filter recursion is bounded by `fuel`. A cycle of filters ends in `StackTooDeep` instead of the interpreter's stack overflow.
- `Hash#merge` with a `Tasking::Options` argument is treated as a merge of the wrapped map. Options and raw hashes are one abstract right-biased map.
- The class-level global registry, and the test reset that clears it, become an explicit `Registry` value.
- The RSpec configuration, and the `invoke`/`run` aliases of `execute`, are not modelled.

=== FILE: engine.dfy ===
/**
 * The `Tasking` DSL mixin. The object that mixes it in keeps three pieces
 * of state: the stack of enclosing namespaces (`@__parent_namespace`,
 * which starts out `nil`), the deferred `before`/`after` calls
 * (`@__late_evaluations`) and whether `execute` has run before
 * (`@__subsequent_executions`). Together with the class-level namespace
 * registry they form an `Engine`, and each DSL call is a function from one
 * engine to the next.
 *
 * The stack holds namespace objects in the source; here it holds their
 * names. A failing call (an `abort`, or a method called on `nil`) ends the
 * program, so a `Failure` is final.
 */
module Engine {
  import opened Results
  import opened Paths
  import opened Options
  import opened Tasks
  import opened Namespaces
  import opened Execution

  // ---------------------------------------------------------------------
  // State
  // ---------------------------------------------------------------------

  /** One deferred `before`/`after` call: its target, the enclosing namespace's name ("" outside any), its flattened filters. */
  datatype Deferred = Deferred(target: string, scope: string, filters: seq<string>)

  /**
   * `@__late_evaluations`: a hash from kind to queued calls. A Ruby hash
   * iterates in insertion order, so `order` lists the kinds as first used.
   */
  datatype Pending = Pending(order: seq<FilterKind>, before: seq<Deferred>, after: seq<Deferred>)

  datatype Engine = Engine(
    reg: Registry,
    scope: seq<string>,
    scopeReady: bool,
    pending: Pending,
    executed: bool)

  /** A new DSL user: empty registry, `@__parent_namespace` still `nil`, nothing deferred. */
  const Fresh: Engine := Engine(map[], [], false, Pending([], [], []), false)

  /** The queued calls of one kind. */
  function Queue(p: Pending, kind: FilterKind): seq<Deferred>
  {
    match kind
    case BeforeFilter => p.before
    case AfterFilter => p.after
  }

  /** Each kind appears once in `order`, and every kind with queued calls appears there. */
  predicate PendingWF(p: Pending) {
    && (forall i, j :: 0 <= i < j < |p.order| ==> p.order[i] != p.order[j])
    && (forall kind :: |Queue(p, kind)| > 0 ==> kind in p.order)
  }

  /** `@__late_evaluations[kind] ||= []` followed by `<<`. */
  function Enqueue(p: Pending, kind: FilterKind, d: Deferred): (r: Pending)
    ensures Queue(r, kind) == Queue(p, kind) + [d]
    ensures forall other :: other != kind ==> Queue(r, other) == Queue(p, other)
    ensures kind in r.order && forall k :: k in p.order ==> k in r.order
    ensures PendingWF(p) ==> PendingWF(r)
  {
    var order := if kind in p.order then p.order else p.order + [kind];
    match kind
    case BeforeFilter => Pending(order, p.before + [d], p.after)
    case AfterFilter => Pending(order, p.before, p.after + [d])
  }

  /**
   * What every DSL call keeps true: the registry is well formed, every name
   * on the stack is registered, the stack is empty while it is `nil`, and
   * the deferred queue is well formed.
   */
  predicate EngineWF(e: Engine) {
    && RegistryWF(e.reg)
    && (forall i :: 0 <= i < |e.scope| ==> e.scope[i] in e.reg)
    && (!e.scopeReady ==> e.scope == [])
    && PendingWF(e.pending)
  }

  /** The innermost enclosing namespace's name. */
  function Top(e: Engine): string
    requires |e.scope| > 0
  {
    e.scope[|e.scope| - 1]
  }

  // ---------------------------------------------------------------------
  // Names and the namespace hierarchy
  // ---------------------------------------------------------------------

  /** `fully_qualified_name`: the name under the innermost enclosing namespace, if there is one. */
  function FullyQualifiedName(e: Engine, name: string): (r: string)
    ensures |e.scope| == 0 ==> r == name
    ensures |e.scope| > 0 ==> r == Top(e) + Sep + name
    ensures |e.scope| > 0 && IsSimpleName(name) ==> RPartition(r) == (Top(e), name)
  {
    if |e.scope| > 0 then
      var qualified := Top(e) + Sep + name;
      if IsSimpleName(name) then RPartitionAppend(Top(e), name); qualified else qualified
    else
      name
  }

  /** `find_or_create` with default options for each name in turn. */
  function CreateEach(reg: Registry, names: seq<string>): (r: Registry)
    ensures forall i :: 0 <= i < |names| ==> names[i] in r
    ensures forall n :: n in reg ==> n in r && r[n] == reg[n]
    ensures forall n :: n in r && n !in reg ==> n in names && r[n] == NewNamespace(n, FromHash(map[]))
    decreases |names|
  {
    if |names| == 0 then reg
    else
      var reg1 := FindOrCreate(reg, names[0], FromHash(map[])).0;
      var r := CreateEach(reg1, names[1..]);
      assert forall i :: 1 <= i < |names| ==> names[i] == names[1..][i - 1];
      r
  }

  /**
   * `build_namespace_hierarchy`: every namespace the walk visits exists
   * afterwards; existing namespaces are untouched, and the new ones are
   * empty.
   */
  function BuildNamespaceHierarchy(reg: Registry, fullName: string): (r: Registry)
    ensures forall n :: n in WalkNames(fullName, false) ==> n in r
    ensures forall n :: n in reg ==> n in r && r[n] == reg[n]
    ensures forall n :: n in r && n !in reg ==> n in WalkNames(fullName, false) && r[n] == NewNamespace(n, FromHash(map[]))
  {
    CreateEach(reg, WalkNames(fullName, false))
  }

  lemma {:induction false} CreateEachKeepsWF(reg: Registry, names: seq<string>)
    requires RegistryWF(reg)
    ensures RegistryWF(CreateEach(reg, names))
    decreases |names|
  {
    if |names| > 0 {
      var reg1 := FindOrCreate(reg, names[0], FromHash(map[])).0;
      FindOrCreateKeepsWF(reg, names[0], FromHash(map[]));
      CreateEachKeepsWF(reg1, names[1..]);
    }
  }

  /** On a well-formed path the hierarchy holds every prefix of the path, the path itself last. */
  lemma BuildHierarchyOnPath(reg: Registry, segs: seq<string>)
    requires IsPath(segs)
    ensures forall k :: 1 <= k <= |segs| ==> Join(segs[..k]) in BuildNamespaceHierarchy(reg, Join(segs))
  {
    WalkReachesPrefixes(segs, BuildNamespaceHierarchy(reg, Join(segs)));
  }

  // ---------------------------------------------------------------------
  // task
  // ---------------------------------------------------------------------

  /**
   * `task`: the name is qualified by the enclosing namespace and split at
   * its last `::`; the namespace part must be non-empty, its hierarchy is
   * created, and the new task replaces any task of that name there.
   */
  function DeclareTask(e: Engine, name: string, options: OptMap, hasBody: bool): (r: Result<Engine, Error>)
    ensures name == "" ==> r == Failure(EmptyTaskName)
    ensures name != "" && RPartition(FullyQualifiedName(e, name)).0 == "" ==> r == Failure(NotInNamespace(name))
    ensures r.Success? ==> r.value.scope == e.scope && r.value.scopeReady == e.scopeReady
                           && r.value.pending == e.pending && r.value.executed == e.executed
    ensures r.Success? ==> e.reg.Keys <= r.value.reg.Keys
    ensures r.Success? ==>
              var (n, k) := RPartition(FullyQualifiedName(e, name));
              && n != "" && n in r.value.reg && k in r.value.reg[n].tasks
              && r.value.reg[n].tasks[k] == NewTask(k, r.value.reg[n].name, options, hasBody)
  {
    if name == "" then
      Failure(EmptyTaskName)
    else
      var (nsName, taskName) := RPartition(FullyQualifiedName(e, name));
      if nsName == "" then
        Failure(NotInNamespace(name))
      else
        var reg1 := BuildNamespaceHierarchy(e.reg, nsName);
        match FindNamespace(reg1, nsName)
        case None => Failure(MissingNamespace(nsName))
        case Some(parent) =>
          var t := NewTask(taskName, parent.name, options, hasBody);
          Success(e.(reg := reg1[nsName := RegisterTask(parent, t)]))
  }

  /** The registry `task` produces for a qualified name `n::k`, `n` a well-formed path: the hierarchy of `n`, plus the task there. */
  lemma DeclareTaskResult(e: Engine, name: string, options: OptMap, hasBody: bool, nsSegs: seq<string>, last: string)
    requires RegistryWF(e.reg) && name != ""
    requires IsPath(nsSegs) && IsSegment(last) && FullyQualifiedName(e, name) == Join(nsSegs) + Sep + last
    ensures var nsName := Join(nsSegs);
            var reg1 := BuildNamespaceHierarchy(e.reg, nsName);
            && nsName in reg1 && reg1[nsName].name == nsName
            && DeclareTask(e, name, options, hasBody)
               == Success(e.(reg := reg1[nsName := RegisterTask(reg1[nsName], NewTask(last, nsName, options, hasBody))]))
  {
    NoColonSimple(last);
    RPartitionAppend(Join(nsSegs), last);
    JoinNonEmpty(nsSegs);
    BuildHierarchyOnPath(e.reg, nsSegs);
    assert nsSegs[..|nsSegs|] == nsSegs;
    CreateEachKeepsWF(e.reg, WalkNames(Join(nsSegs), false));
  }

  /**
   * Declaring a task whose qualified name is `n::k`, with `n` a
   * well-formed path and `k` a segment, succeeds: every prefix of `n` is a
   * namespace, the task is found under the qualified name, and every other
   * task is unchanged.
   */
  lemma DeclareTaskOnPath(e: Engine, name: string, options: OptMap, hasBody: bool, nsSegs: seq<string>, last: string)
    requires RegistryWF(e.reg) && name != ""
    requires IsPath(nsSegs) && IsSegment(last) && FullyQualifiedName(e, name) == Join(nsSegs) + Sep + last
    ensures DeclareTask(e, name, options, hasBody).Success?
    ensures var reg := DeclareTask(e, name, options, hasBody).value.reg;
            && (forall k :: 1 <= k <= |nsSegs| ==> Join(nsSegs[..k]) in reg)
            && FindTask(reg, Join(nsSegs) + Sep + last) == Some(NewTask(last, Join(nsSegs), options, hasBody))
            && (forall n, k :: n in e.reg && k in e.reg[n].tasks && (n, k) != (Join(nsSegs), last)
                  ==> n in reg && k in reg[n].tasks && reg[n].tasks[k] == e.reg[n].tasks[k])
  {
    var nsName := Join(nsSegs);
    DeclareTaskResult(e, name, options, hasBody, nsSegs, last);
    var reg1 := BuildNamespaceHierarchy(e.reg, nsName);
    var t := NewTask(last, nsName, options, hasBody);
    var reg := reg1[nsName := RegisterTask(reg1[nsName], t)];
    assert DeclareTask(e, name, options, hasBody).value.reg == reg;
    BuildHierarchyOnPath(e.reg, nsSegs);
    forall n, k | n in e.reg && k in e.reg[n].tasks && (n, k) != (nsName, last)
      ensures n in reg && k in reg[n].tasks && reg[n].tasks[k] == e.reg[n].tasks[k]
    {
      assert reg1[n] == e.reg[n];
    }
    NoColonSimple(last);
    FindTaskQualified(reg, nsName, last);
  }

  // ---------------------------------------------------------------------
  // namespace and options
  // ---------------------------------------------------------------------

  /**
   * The part of `namespace` before its block runs: the qualified name's
   * parents are created, the namespace itself is found or created with the
   * given options, pushed, and the options are merged into it.
   */
  function OpenNamespace(e: Engine, name: string, options: OptMap): (r: Result<Engine, Error>)
    ensures name == "" <==> r.Failure?
    ensures r.Failure? ==> r.error == EmptyNamespaceName
    ensures r.Success? ==> r.value.scopeReady && r.value.pending == e.pending && r.value.executed == e.executed
    ensures r.Success? ==> |r.value.scope| == |e.scope| + 1 && r.value.scope[..|e.scope|] == e.scope
    ensures r.Success? && RegistryWF(e.reg) ==> r.value.scope == e.scope + [FullyQualifiedName(e, name)]
    ensures r.Success? ==>
              var full := FullyQualifiedName(e, name);
              && full in r.value.reg
              && r.value.reg[full].options.hash == Merge(if full in e.reg then e.reg[full].options.hash else map[], options)
              && (full in e.reg ==> r.value.reg[full].tasks == e.reg[full].tasks)
    ensures r.Success? ==> forall n :: n in e.reg && n != FullyQualifiedName(e, name) ==> n in r.value.reg && r.value.reg[n] == e.reg[n]
    ensures r.Success? ==> forall n :: n in WalkNames(RPartition(FullyQualifiedName(e, name)).0, false) ==> n in r.value.reg
  {
    if name == "" then
      Failure(EmptyNamespaceName)
    else
      var full := FullyQualifiedName(e, name);
      var reg1 := BuildNamespaceHierarchy(e.reg, RPartition(full).0);
      var (reg2, ns) := FindOrCreate(reg1, full, FromHash(options));
      MergeSelf(options);
      Success(e.(reg := reg2[full := ExecuteNamespace(ns, options)], scope := e.scope + [ns.name], scopeReady := true))
  }

  /**
   * Opening a namespace whose qualified name is `n::m`, with `n` a
   * well-formed path, leaves every prefix of `n` registered, as well as
   * `n::m` itself.
   */
  lemma OpenNamespaceOnPath(e: Engine, name: string, options: OptMap, parentSegs: seq<string>, last: string)
    requires name != "" && IsPath(parentSegs) && IsSegment(last)
    requires FullyQualifiedName(e, name) == Join(parentSegs) + Sep + last
    ensures var reg := OpenNamespace(e, name, options).value.reg;
            && (forall k :: 1 <= k <= |parentSegs| ==> Join(parentSegs[..k]) in reg)
            && Join(parentSegs) + Sep + last in reg
  {
    NoColonSimple(last);
    RPartitionAppend(Join(parentSegs), last);
    var r := OpenNamespace(e, name, options);
    WalkReachesPrefixes(parentSegs, r.value.reg);
  }

  /** The `pop` after the block. */
  function CloseNamespace(e: Engine): (r: Engine)
    ensures |e.scope| > 0 ==> e.scope == r.scope + [Top(e)]
    ensures r.reg == e.reg && r.pending == e.pending && r.executed == e.executed && r.scopeReady == e.scopeReady
  {
    e.(scope := DropLast(e.scope))
  }

  /**
   * `options`: merged into the innermost enclosing namespace. Outside any
   * namespace the source calls a method on `nil` and fails.
   */
  function SetOptions(e: Engine, options: OptMap): (r: Result<Engine, Error>)
    ensures !e.scopeReady || |e.scope| == 0 ==> r == Failure(NoCurrentScope)
    ensures r.Success? ==> r.value.scope == e.scope && r.value.scopeReady == e.scopeReady
                           && r.value.pending == e.pending && r.value.executed == e.executed
    ensures r.Success? ==>
              var top := Top(e);
              && r.value.reg.Keys == e.reg.Keys && top in e.reg
              && r.value.reg[top].options.hash == Merge(e.reg[top].options.hash, options)
              && r.value.reg[top].tasks == e.reg[top].tasks && r.value.reg[top].name == e.reg[top].name
              && forall n :: n in e.reg && n != top ==> r.value.reg[n] == e.reg[n]
  {
    if !e.scopeReady || |e.scope| == 0 then
      Failure(NoCurrentScope)
    else
      match FindNamespace(e.reg, Top(e))
      case None => Failure(MissingNamespace(Top(e)))
      case Some(ns) => Success(e.(reg := e.reg[Top(e) := MergeOptions(ns, options)]))
  }

  /** Inside a namespace of a well-formed engine, `options` always succeeds. */
  lemma SetOptionsInsideNamespace(e: Engine, options: OptMap)
    requires EngineWF(e) && e.scopeReady && |e.scope| > 0
    ensures SetOptions(e, options).Success?
  {
    assert Top(e) in e.reg;
  }

  // ---------------------------------------------------------------------
  // before and after
  // ---------------------------------------------------------------------

  /**
   * `before` / `after`: the call is queued with the innermost namespace's
   * name and the flattened filters; the registry is not touched. While the
   * stack is still `nil` the source fails calling `last` on it.
   */
  function Defer(e: Engine, kind: FilterKind, target: string, filters: seq<FilterRef>): (r: Result<Engine, Error>)
    ensures r.Success? <==> e.scopeReady
    ensures r.Failure? ==> r.error == NoCurrentScope
    ensures r.Success? ==> r.value.reg == e.reg && r.value.scope == e.scope && r.value.scopeReady == e.scopeReady
                           && r.value.executed == e.executed
    ensures r.Success? ==>
              Queue(r.value.pending, kind)
              == Queue(e.pending, kind) + [Deferred(target, if |e.scope| > 0 then Top(e) else "", Flatten(filters))]
    ensures r.Success? ==> forall other :: other != kind ==> Queue(r.value.pending, other) == Queue(e.pending, other)
    ensures r.Success? && PendingWF(e.pending) ==> PendingWF(r.value.pending)
  {
    if !e.scopeReady then
      Failure(NoCurrentScope)
    else
      var scopeName := if |e.scope| > 0 then Top(e) else "";
      Success(e.(pending := Enqueue(e.pending, kind, Deferred(target, scopeName, Flatten(filters)))))
  }

  // ---------------------------------------------------------------------
  // late_before, late_after, late_evaluations
  // ---------------------------------------------------------------------

  /** A task keeps its identity and only gains filters at the end of its lists. */
  predicate TaskGrown(t: Task, u: Task) {
    && u.name == t.name && u.ns == t.ns && u.options == t.options && u.hasBody == t.hasBody
    && t.before <= u.before && t.after <= u.after
  }

  /** The same namespaces and tasks, each task only gaining filters. */
  predicate FiltersGrown(a: Registry, b: Registry) {
    && a.Keys == b.Keys
    && forall n :: n in a ==>
         && b[n].name == a[n].name && b[n].options == a[n].options && b[n].tasks.Keys == a[n].tasks.Keys
         && forall k :: k in a[n].tasks ==> TaskGrown(a[n].tasks[k], b[n].tasks[k])
  }

  lemma FiltersGrownTrans(a: Registry, b: Registry, c: Registry)
    requires FiltersGrown(a, b) && FiltersGrown(b, c)
    ensures FiltersGrown(a, c)
  {
    forall n, k | n in a && k in a[n].tasks
      ensures TaskGrown(a[n].tasks[k], c[n].tasks[k])
    {
      var t, u, v := a[n].tasks[k], b[n].tasks[k], c[n].tasks[k];
      assert TaskGrown(t, u) && TaskGrown(u, v);
      assert t.before <= v.before by {
        assert t.before == u.before[..|t.before|];
        assert u.before == v.before[..|u.before|];
      }
      assert t.after <= v.after by {
        assert t.after == u.after[..|t.after|];
        assert u.after == v.after[..|u.after|];
      }
    }
  }

  lemma FiltersGrownKeepsWF(a: Registry, b: Registry)
    requires RegistryWF(a) && FiltersGrown(a, b)
    ensures RegistryWF(b)
  {
    forall n, k | n in b && k in b[n].tasks
      ensures TaskAt(b[n].tasks[k], n, k)
    {
      assert TaskAt(a[n].tasks[k], n, k);
      assert TaskGrown(a[n].tasks[k], b[n].tasks[k]);
    }
  }

  /**
   * Where a deferred call's target is found: first as a task of the
   * recorded namespace, then by `find_task` on the target as written.
   */
  function LocateTarget(reg: Registry, scope: string, target: string): (r: Option<(string, string)>)
    ensures r.Some? <==> FindTaskInNamespace(reg, scope, target).Some? || FindTask(reg, target).Some?
    ensures FindTaskInNamespace(reg, scope, target).Some? ==> r == Some((scope, target))
    ensures FindTaskInNamespace(reg, scope, target).None? && r.Some? ==> r == Some(RPartition(target))
    ensures r.Some? ==> r.value.0 in reg && r.value.1 in reg[r.value.0].tasks
  {
    if FindTaskInNamespace(reg, scope, target).Some? then Some((scope, target))
    else if FindTask(reg, target).Some? then Some(RPartition(target))
    else None
  }

  /** Locating a target depends only on which namespaces and tasks exist, not on their filters. */
  lemma LocateStable(a: Registry, b: Registry, scope: string, target: string)
    requires FiltersGrown(a, b)
    ensures LocateTarget(a, scope, target) == LocateTarget(b, scope, target)
  {
  }

  /**
   * `late_before` / `late_after`: the target's filter list of that kind
   * gains the call's filters at its end; an unknown target fails naming
   * the target.
   */
  function LateAttach(reg: Registry, kind: FilterKind, d: Deferred): (r: Result<Registry, Error>)
    ensures r.Success? <==> LocateTarget(reg, d.scope, d.target).Some?
    ensures r.Failure? ==> r.error == UnknownFilterTarget(kind, d.target)
    ensures r.Success? ==> FiltersGrown(reg, r.value)
    ensures r.Success? ==>
              var (n, k) := LocateTarget(reg, d.scope, d.target).value;
              && Filters(r.value[n].tasks[k], kind) == Filters(reg[n].tasks[k], kind) + d.filters
              && (forall other :: other != kind ==> Filters(r.value[n].tasks[k], other) == Filters(reg[n].tasks[k], other))
              && forall m, j :: m in reg && j in reg[m].tasks && (m, j) != (n, k) ==> r.value[m].tasks[j] == reg[m].tasks[j]
  {
    match LocateTarget(reg, d.scope, d.target)
    case None => Failure(UnknownFilterTarget(kind, d.target))
    case Some((n, k)) =>
      var t := reg[n].tasks[k];
      FlattenNames(d.filters);
      Success(reg[n := reg[n].(tasks := reg[n].tasks[k := AddFilters(t, kind, Names(d.filters))])])
  }

  /** The target of a deferred call can be located. */
  predicate Located(reg: Registry, d: Deferred) {
    LocateTarget(reg, d.scope, d.target).Some?
  }

  /** The targets of all of `ds` can be located. */
  predicate AllLocated(reg: Registry, ds: seq<Deferred>) {
    forall i :: 0 <= i < |ds| ==> Located(reg, ds[i])
  }

  /** Call `i` of `ds` is the first whose target cannot be located. */
  predicate FirstUnlocated(reg: Registry, ds: seq<Deferred>, i: int) {
    0 <= i < |ds| && !Located(reg, ds[i]) && AllLocated(reg, ds[..i])
  }

  /** The first unlocatable call of `ds[1..]`, after a head that locates, is the first of `ds`. */
  lemma FirstUnlocatedStep(reg: Registry, reg1: Registry, ds: seq<Deferred>, j: int)
    requires FiltersGrown(reg, reg1) && |ds| > 0 && Located(reg, ds[0]) && FirstUnlocated(reg1, ds[1..], j)
    ensures FirstUnlocated(reg, ds, j + 1) && ds[j + 1] == ds[1..][j]
  {
    LocateStable(reg, reg1, ds[j + 1].scope, ds[j + 1].target);
    var before, before1 := ds[..j + 1], ds[1..][..j];
    forall m | 0 <= m < |before|
      ensures Located(reg, before[m])
    {
      if m > 0 {
        assert before[m] == before1[m - 1];
        LocateStable(reg, reg1, before[m].scope, before[m].target);
      }
    }
  }

  /**
   * Every call of one kind's queue in order; the first unknown target
   * stops the drain, and the error names it.
   */
  function AttachAll(reg: Registry, kind: FilterKind, ds: seq<Deferred>): (r: Result<Registry, Error>)
    ensures r.Failure? ==> exists i :: FirstUnlocated(reg, ds, i) && r.error == UnknownFilterTarget(kind, ds[i].target)
    ensures r.Success? ==> FiltersGrown(reg, r.value)
    decreases |ds|
  {
    if |ds| == 0 then
      Success(reg)
    else
      match LateAttach(reg, kind, ds[0])
      case Failure(err) =>
        assert FirstUnlocated(reg, ds, 0);
        Failure(err)
      case Success(reg1) =>
        var r := AttachAll(reg1, kind, ds[1..]);
        if r.Success? then FiltersGrownTrans(reg, reg1, r.value); r
        else
          var j :| FirstUnlocated(reg1, ds[1..], j) && r.error == UnknownFilterTarget(kind, ds[1..][j].target);
          FirstUnlocatedStep(reg, reg1, ds, j);
          r
  }

  /** Every call of `ds` is located before the first attach iff the head is, and the rest are after it. */
  lemma AttachAllStep(reg: Registry, reg1: Registry, ds: seq<Deferred>)
    requires FiltersGrown(reg, reg1) && |ds| > 0
    ensures AllLocated(reg, ds) <==> Located(reg, ds[0]) && AllLocated(reg1, ds[1..])
  {
    var rest := ds[1..];
    if AllLocated(reg, ds) {
      forall i | 0 <= i < |rest|
        ensures Located(reg1, rest[i])
      {
        assert rest[i] == ds[i + 1];
        LocateStable(reg, reg1, rest[i].scope, rest[i].target);
      }
    }
    if Located(reg, ds[0]) && AllLocated(reg1, rest) {
      forall i | 0 < i < |ds|
        ensures Located(reg, ds[i])
      {
        assert ds[i] == rest[i - 1];
        LocateStable(reg, reg1, ds[i].scope, ds[i].target);
      }
    }
  }

  /** A queue drains without error exactly when every target in it can be located beforehand. */
  lemma {:induction false} AttachAllSucceedsIff(reg: Registry, kind: FilterKind, ds: seq<Deferred>)
    ensures AttachAll(reg, kind, ds).Success? <==> AllLocated(reg, ds)
    decreases |ds|
  {
    if |ds| > 0 {
      match LateAttach(reg, kind, ds[0])
      case Failure(_) =>
      case Success(reg1) =>
        AttachAllSucceedsIff(reg1, kind, ds[1..]);
        AttachAllStep(reg, reg1, ds);
    }
  }

  /**
   * Call `i` of the queue of `kinds[j]` is the first unlocatable call in
   * drain order: every call of the kinds before it locates, and so do the
   * calls before it in its own queue.
   */
  predicate FirstUnlocatedIn(reg: Registry, p: Pending, kinds: seq<FilterKind>, j: int, i: int) {
    && 0 <= j < |kinds|
    && (forall m :: 0 <= m < j ==> AllLocated(reg, Queue(p, kinds[m])))
    && FirstUnlocated(reg, Queue(p, kinds[j]), i)
  }

  /** The first unlocatable call after a fully located first kind is the first of the whole drain. */
  lemma FirstUnlocatedInStep(reg: Registry, reg1: Registry, p: Pending, kinds: seq<FilterKind>, j: int, i: int)
    requires FiltersGrown(reg, reg1) && |kinds| > 0 && AllLocated(reg, Queue(p, kinds[0]))
    requires FirstUnlocatedIn(reg1, p, kinds[1..], j, i)
    ensures FirstUnlocatedIn(reg, p, kinds, j + 1, i) && kinds[j + 1] == kinds[1..][j]
  {
    var q := Queue(p, kinds[j + 1]);
    assert kinds[j + 1] == kinds[1..][j];
    LocateStable(reg, reg1, q[i].scope, q[i].target);
    AllLocatedStable(reg, reg1, q[..i]);
    forall m | 0 <= m < j + 1
      ensures AllLocated(reg, Queue(p, kinds[m]))
    {
      if m > 0 {
        assert kinds[m] == kinds[1..][m - 1];
        AllLocatedStable(reg, reg1, Queue(p, kinds[m]));
      }
    }
  }

  /**
   * The queues of `kinds`, in that order; the first unknown target stops
   * the drain, and the error names it with its kind.
   */
  function DrainKinds(reg: Registry, p: Pending, kinds: seq<FilterKind>): (r: Result<Registry, Error>)
    ensures r.Failure? ==> exists j, i :: FirstUnlocatedIn(reg, p, kinds, j, i)
                                         && r.error == UnknownFilterTarget(kinds[j], Queue(p, kinds[j])[i].target)
    ensures r.Success? ==> FiltersGrown(reg, r.value)
    decreases |kinds|
  {
    if |kinds| == 0 then
      Success(reg)
    else
      match AttachAll(reg, kinds[0], Queue(p, kinds[0]))
      case Failure(err) =>
        var i :| FirstUnlocated(reg, Queue(p, kinds[0]), i) && err == UnknownFilterTarget(kinds[0], Queue(p, kinds[0])[i].target);
        assert FirstUnlocatedIn(reg, p, kinds, 0, i);
        Failure(err)
      case Success(reg1) =>
        var r := DrainKinds(reg1, p, kinds[1..]);
        if r.Success? then FiltersGrownTrans(reg, reg1, r.value); r
        else
          var j, i :| FirstUnlocatedIn(reg1, p, kinds[1..], j, i)
                      && r.error == UnknownFilterTarget(kinds[1..][j], Queue(p, kinds[1..][j])[i].target);
          AttachAllSucceedsIff(reg, kinds[0], Queue(p, kinds[0]));
          FirstUnlocatedInStep(reg, reg1, p, kinds, j, i);
          r
  }

  /** Attaching filters leaves every call's locatability as it was. */
  lemma AllLocatedStable(reg: Registry, reg1: Registry, ds: seq<Deferred>)
    requires FiltersGrown(reg, reg1)
    ensures AllLocated(reg, ds) <==> AllLocated(reg1, ds)
  {
    forall i | 0 <= i < |ds| {
      LocateStable(reg, reg1, ds[i].scope, ds[i].target);
    }
  }

  /** The drain of `kinds` succeeds exactly when every target of their queues can be located beforehand. */
  lemma {:induction false} DrainKindsSucceedsIff(reg: Registry, p: Pending, kinds: seq<FilterKind>)
    ensures DrainKinds(reg, p, kinds).Success? <==> forall j :: 0 <= j < |kinds| ==> AllLocated(reg, Queue(p, kinds[j]))
    decreases |kinds|
  {
    if |kinds| > 0 {
      AttachAllSucceedsIff(reg, kinds[0], Queue(p, kinds[0]));
      match AttachAll(reg, kinds[0], Queue(p, kinds[0]))
      case Failure(_) =>
      case Success(reg1) =>
        DrainKindsSucceedsIff(reg1, p, kinds[1..]);
        forall j | 1 <= j < |kinds|
          ensures AllLocated(reg, Queue(p, kinds[j])) <==> AllLocated(reg1, Queue(p, kinds[1..][j - 1]))
        {
          assert kinds[1..][j - 1] == kinds[j];
          AllLocatedStable(reg, reg1, Queue(p, kinds[j]));
        }
    }
  }

  /**
   * `late_evaluations`: every queued call, kind by kind in the order the
   * kinds were first used, each kind's calls in the order they were made.
   */
  function LateEvaluations(reg: Registry, p: Pending): (r: Result<Registry, Error>)
    ensures r.Failure? ==> exists j, i :: FirstUnlocatedIn(reg, p, p.order, j, i)
                                         && r.error == UnknownFilterTarget(p.order[j], Queue(p, p.order[j])[i].target)
    ensures r.Success? ==> FiltersGrown(reg, r.value)
    ensures r.Success? && PendingWF(p) ==> forall kind :: KindAppended(reg, r.value, kind, Queue(p, kind))
  {
    if PendingWF(p) then
      DrainKindsAppends(reg, p, p.order);
      assert forall kind :: QueuedOf(p, p.order, kind) == Queue(p, kind);
      DrainKinds(reg, p, p.order)
    else
      DrainKinds(reg, p, p.order)
  }

  /**
   * The drain succeeds exactly when every queued call's target can be
   * located in the registry as it stood before the drain: attaching
   * filters never makes a target appear or disappear.
   */
  lemma LateEvaluationsSucceedIff(reg: Registry, p: Pending)
    requires PendingWF(p)
    ensures LateEvaluations(reg, p).Success? <==> forall kind :: AllLocated(reg, Queue(p, kind))
  {
    DrainKindsSucceedsIff(reg, p, p.order);
    if LateEvaluations(reg, p).Success? {
      forall kind
        ensures AllLocated(reg, Queue(p, kind))
      {
        if |Queue(p, kind)| > 0 {
          assert kind in p.order;
          var j :| 0 <= j < |p.order| && p.order[j] == kind;
        }
      }
    }
  }

  /**
   * What the calls of `ds` add to task `k` of namespace `n`, in queue
   * order: the filters of each call whose target locates that task.
   */
  function Attached(reg: Registry, ds: seq<Deferred>, n: string, k: string): seq<string>
    decreases |ds|
  {
    if |ds| == 0 then []
    else (if LocateTarget(reg, ds[0].scope, ds[0].target) == Some((n, k)) then ds[0].filters else []) + Attached(reg, ds[1..], n, k)
  }

  /** If task `k` of namespace `n` exists in `a`, its list of `kind` in `b` is its list in `a` followed by what `ds` attach to it. */
  predicate TaskAppended(a: Registry, b: Registry, kind: FilterKind, ds: seq<Deferred>, n: string, k: string) {
    n in a && k in a[n].tasks ==>
      n in b && k in b[n].tasks && Filters(b[n].tasks[k], kind) == Filters(a[n].tasks[k], kind) + Attached(a, ds, n, k)
  }

  /** Every task's list of `kind` in `b` is its list in `a` followed by what `ds` attach to it. */
  ghost predicate KindAppended(a: Registry, b: Registry, kind: FilterKind, ds: seq<Deferred>) {
    forall n, k :: TaskAppended(a, b, kind, ds, n, k)
  }

  /** Concatenation is associative. */
  lemma AppendAssoc<T>(x: seq<T>, y: seq<T>, z: seq<T>)
    ensures x + y + z == x + (y + z)
  {
  }

  /** Attaching filters does not change where any call's target is located. */
  lemma {:induction false} AttachedStable(a: Registry, b: Registry, ds: seq<Deferred>, n: string, k: string)
    requires FiltersGrown(a, b)
    ensures Attached(a, ds, n, k) == Attached(b, ds, n, k)
    decreases |ds|
  {
    if |ds| > 0 {
      LocateStable(a, b, ds[0].scope, ds[0].target);
      AttachedStable(a, b, ds[1..], n, k);
    }
  }

  /** What two queues attach, one after the other, is what their concatenation attaches. */
  lemma {:induction false} AttachedAppend(reg: Registry, ds1: seq<Deferred>, ds2: seq<Deferred>, n: string, k: string)
    ensures Attached(reg, ds1 + ds2, n, k) == Attached(reg, ds1, n, k) + Attached(reg, ds2, n, k)
    decreases |ds1|
  {
    if |ds1| > 0 {
      assert (ds1 + ds2)[0] == ds1[0] && (ds1 + ds2)[1..] == ds1[1..] + ds2;
      AttachedAppend(reg, ds1[1..], ds2, n, k);
    } else {
      assert ds1 + ds2 == ds2;
    }
  }

  /** Two drains in a row append what the two queues attach, located in the registry before both. */
  lemma KindAppendedTrans(a: Registry, b: Registry, c: Registry, kind: FilterKind, ds1: seq<Deferred>, ds2: seq<Deferred>)
    requires FiltersGrown(a, b) && KindAppended(a, b, kind, ds1) && KindAppended(b, c, kind, ds2)
    ensures KindAppended(a, c, kind, ds1 + ds2)
  {
    forall n, k
      ensures TaskAppended(a, c, kind, ds1 + ds2, n, k)
    {
      if n in a && k in a[n].tasks {
        assert TaskAppended(a, b, kind, ds1, n, k) && TaskAppended(b, c, kind, ds2, n, k);
        AttachedStable(a, b, ds2, n, k);
        AttachedAppend(a, ds1, ds2, n, k);
        AppendAssoc(Filters(a[n].tasks[k], kind), Attached(a, ds1, n, k), Attached(a, ds2, n, k));
      }
    }
  }

  /** Appending nothing changes nothing. */
  lemma AppendEmpty<T>(x: seq<T>)
    ensures x + [] == x
  {
  }

  /** An empty queue appends nothing. */
  lemma KindAppendedNothing(reg: Registry, kind: FilterKind)
    ensures KindAppended(reg, reg, kind, [])
  {
    forall n, k
      ensures TaskAppended(reg, reg, kind, [], n, k)
    {
      if n in reg && k in reg[n].tasks {
        AppendEmpty(Filters(reg[n].tasks[k], kind));
      }
    }
  }

  /** One `late_before`/`late_after` call appends its filters to the task it locates and changes no other list. */
  lemma LateAttachAppends(reg: Registry, kind: FilterKind, d: Deferred)
    ensures var r := LateAttach(reg, kind, d);
            r.Success? ==> KindAppended(reg, r.value, kind, [d]) && forall other :: other != kind ==> KindAppended(reg, r.value, other, [])
  {
    var r := LateAttach(reg, kind, d);
    if r.Success? {
      var target := LocateTarget(reg, d.scope, d.target).value;
      forall n, k
        ensures TaskAppended(reg, r.value, kind, [d], n, k)
      {
        assert [d][1..] == [];
        if n in reg && k in reg[n].tasks {
          if (n, k) == target {
            AppendEmpty(d.filters);
          } else {
            AppendEmpty(Filters(reg[n].tasks[k], kind));
          }
        }
      }
      forall other, n, k | other != kind
        ensures TaskAppended(reg, r.value, other, [], n, k)
      {
        if n in reg && k in reg[n].tasks {
          AppendEmpty(Filters(reg[n].tasks[k], other));
        }
      }
    }
  }

  /**
   * Draining one kind's queue appends, to each task's list of that kind,
   * the filters of the calls whose target locates it, in queue order, and
   * leaves the other kind's lists alone.
   */
  lemma {:induction false} AttachAllAppends(reg: Registry, kind: FilterKind, ds: seq<Deferred>)
    ensures var r := AttachAll(reg, kind, ds);
            r.Success? ==> KindAppended(reg, r.value, kind, ds) && forall other :: other != kind ==> KindAppended(reg, r.value, other, [])
    decreases |ds|
  {
    if |ds| == 0 {
      forall other {
        KindAppendedNothing(reg, other);
      }
    } else {
      match LateAttach(reg, kind, ds[0])
      case Failure(_) =>
      case Success(reg1) =>
        AttachAllAppends(reg1, kind, ds[1..]);
        var r := AttachAll(reg1, kind, ds[1..]);
        if r.Success? {
          AttachAppendsStep(reg, reg1, r.value, kind, ds[0], ds[1..]);
          assert [ds[0]] + ds[1..] == ds;
        }
    }
  }

  /** One attach followed by the drain of the rest appends the head's filters, then the rest's. */
  lemma AttachAppendsStep(reg: Registry, reg1: Registry, r: Registry, kind: FilterKind, d: Deferred, rest: seq<Deferred>)
    requires LateAttach(reg, kind, d) == Success(reg1)
    requires KindAppended(reg1, r, kind, rest) && forall other :: other != kind ==> KindAppended(reg1, r, other, [])
    ensures KindAppended(reg, r, kind, [d] + rest) && forall other :: other != kind ==> KindAppended(reg, r, other, [])
  {
    LateAttachAppends(reg, kind, d);
    KindAppendedTrans(reg, reg1, r, kind, [d], rest);
    forall other | other != kind
      ensures KindAppended(reg, r, other, [])
    {
      KindAppendedTrans(reg, reg1, r, other, [], []);
      AppendEmpty<Deferred>([]);
    }
  }

  /** The calls `DrainKinds` attaches for `kind`: its queue when `kind` is drained, none otherwise. */
  function QueuedOf(p: Pending, kinds: seq<FilterKind>, kind: FilterKind): seq<Deferred>
  {
    if kind in kinds then Queue(p, kind) else []
  }

  /** Prepending nothing changes nothing. */
  lemma EmptyAppend<T>(x: seq<T>)
    ensures [] + x == x
  {
  }

  /** Draining `head` and then the distinct `rest` appends each kind's queue once. */
  lemma DrainKindsStep(reg: Registry, reg1: Registry, r: Registry, p: Pending, head: FilterKind, rest: seq<FilterKind>)
    requires FiltersGrown(reg, reg1) && head !in rest
    requires KindAppended(reg, reg1, head, Queue(p, head))
    requires forall other :: other != head ==> KindAppended(reg, reg1, other, [])
    requires forall kind :: KindAppended(reg1, r, kind, QueuedOf(p, rest, kind))
    ensures forall kind :: KindAppended(reg, r, kind, QueuedOf(p, [head] + rest, kind))
  {
    forall kind
      ensures KindAppended(reg, r, kind, QueuedOf(p, [head] + rest, kind))
    {
      assert kind in [head] + rest <==> kind == head || kind in rest;
      if kind == head {
        assert QueuedOf(p, rest, kind) == [];
        KindAppendedTrans(reg, reg1, r, kind, Queue(p, head), []);
        AppendEmpty(Queue(p, head));
      } else {
        KindAppendedTrans(reg, reg1, r, kind, [], QueuedOf(p, rest, kind));
        EmptyAppend(QueuedOf(p, rest, kind));
      }
    }
  }

  /** Draining distinct kinds appends to each kind's lists exactly what that kind's queue attaches. */
  lemma {:induction false} DrainKindsAppends(reg: Registry, p: Pending, kinds: seq<FilterKind>)
    requires forall i, j :: 0 <= i < j < |kinds| ==> kinds[i] != kinds[j]
    ensures var r := DrainKinds(reg, p, kinds);
            r.Success? ==> forall kind :: KindAppended(reg, r.value, kind, QueuedOf(p, kinds, kind))
    decreases |kinds|
  {
    if |kinds| == 0 {
      forall kind {
        KindAppendedNothing(reg, kind);
      }
    } else {
      var head, rest := kinds[0], kinds[1..];
      AttachAllAppends(reg, head, Queue(p, head));
      match AttachAll(reg, head, Queue(p, head))
      case Failure(_) =>
      case Success(reg1) =>
        assert forall j :: 0 <= j < |rest| ==> rest[j] == kinds[j + 1];
        DrainKindsAppends(reg1, p, rest);
        var r := DrainKinds(reg1, p, rest);
        if r.Success? {
          assert kinds == [head] + rest;
          DrainKindsStep(reg, reg1, r.value, p, head, rest);
        }
    }
  }

  // ---------------------------------------------------------------------
  // execute
  // ---------------------------------------------------------------------

  /** The names `task_lookup` tries, in order. */
  function LookupCandidates(scope: seq<string>, name: string): seq<string>
  {
    if StartsWithSep(name) then [name[2..]]
    else if |scope| > 0 then [scope[|scope| - 1] + Sep + name, name]
    else [name]
  }

  /**
   * `task_lookup`: an absolute name (leading `::`) is looked up without
   * it; otherwise the name under the innermost namespace wins over the
   * name as written. The result is the first candidate that names a task.
   */
  function TaskLookup(reg: Registry, scope: seq<string>, name: string): (r: Option<Task>)
    ensures var c := LookupCandidates(scope, name);
            r.Some? <==> exists i :: 0 <= i < |c| && FindTask(reg, c[i]).Some?
    ensures var c := LookupCandidates(scope, name);
            r.Some? ==> exists i :: 0 <= i < |c| && r == FindTask(reg, c[i]) && forall j :: 0 <= j < i ==> FindTask(reg, c[j]).None?
  {
    var c := LookupCandidates(scope, name);
    if StartsWithSep(name) then
      assert |c| == 1 && c[0] == name[2..];
      FindTask(reg, name[2..])
    else
      var relative := if |scope| > 0 then FindTask(reg, scope[|scope| - 1] + Sep + name) else None;
      if relative.Some? then
        assert c[0] == scope[|scope| - 1] + Sep + name;
        relative
      else
        assert c[|c| - 1] == name;
        assert |scope| > 0 ==> |c| == 2 && FindTask(reg, c[0]).None?;
        assert |scope| == 0 ==> |c| == 1;
        FindTask(reg, name)
  }

  /** An absolute name finds the same task whatever the enclosing namespaces are. */
  lemma AbsoluteLookupIgnoresScope(reg: Registry, s1: seq<string>, s2: seq<string>, name: string)
    requires StartsWithSep(name)
    ensures TaskLookup(reg, s1, name) == TaskLookup(reg, s2, name) == FindTask(reg, StripSep(name))
  {
  }

  /** The option map of each namespace named, `{}` for one that is missing. */
  function NamespaceTiers(reg: Registry, names: seq<string>): (r: seq<OptMap>)
    ensures |r| == |names|
    ensures forall i :: 0 <= i < |names| && names[i] in reg ==> r[i] == reg[names[i]].options.hash
  {
    seq(|names|, i requires 0 <= i < |names| => if names[i] in reg then reg[names[i]].options.hash else map[])
  }

  /** The walk's loop in `gather_options_for`: each namespace's options merged over the accumulator. */
  function MergeNamespaces(reg: Registry, names: seq<string>, acc: OptionSet): (r: Result<OptionSet, Error>)
    ensures r.Success? <==> forall i :: 0 <= i < |names| ==> names[i] in reg
    ensures r.Failure? ==> exists i :: 0 <= i < |names| && names[i] !in reg && r.error == MissingNamespace(names[i])
    ensures r.Success? ==> r.value.hash == LayeredOnto(acc.hash, NamespaceTiers(reg, names))
    decreases |names|
  {
    if |names| == 0 then
      Success(acc)
    else
      match FindNamespace(reg, names[0])
      case None => Failure(MissingNamespace(names[0]))
      case Some(ns) =>
        var r := MergeNamespaces(reg, names[1..], MergeInPlace(acc, FromSet(ns.options)).0);
        assert forall i :: 1 <= i < |names| ==> names[i] == names[1..][i - 1];
        assert NamespaceTiers(reg, names)[1..] == NamespaceTiers(reg, names[1..]);
        r
  }

  /**
   * `gather_options_for`: the options of each namespace the walk over the
   * given name visits (outermost first), then the task's own options, each
   * merged over the ones before. A visited name that is not a namespace
   * fails, as calling `options` on `nil` does.
   */
  function GatherOptionsFor(reg: Registry, fullTaskName: string, t: Task): (r: Result<OptionSet, Error>)
    ensures var w := WalkNames(fullTaskName, true);
            r.Success? <==> forall i :: 0 <= i < |w| ==> w[i] in reg
    ensures r.Success? ==> r.value.hash == Layered(NamespaceTiers(reg, WalkNames(fullTaskName, true)) + [t.options])
  {
    var w := WalkNames(fullTaskName, true);
    match MergeNamespaces(reg, w, OptionSet(map[]))
    case Failure(err) => Failure(err)
    case Success(acc) =>
      LayeredOntoSnoc(map[], NamespaceTiers(reg, w), t.options);
      Success(MergeInPlace(acc, FromHash(t.options)).0)
  }

  /** The map `execute` hands to the task: the gathered options with the call's options merged over them. */
  function CallOptions(reg: Registry, lookupName: string, t: Task, callOptions: OptMap): (r: Result<OptMap, Error>)
    ensures var w := WalkNames(lookupName, true);
            r.Success? <==> forall i :: 0 <= i < |w| ==> w[i] in reg
    ensures r.Success? ==> r.value == Layered(NamespaceTiers(reg, WalkNames(lookupName, true)) + [t.options, callOptions])
  {
    match GatherOptionsFor(reg, lookupName, t)
    case Failure(err) => Failure(err)
    case Success(gathered) =>
      var tiers := NamespaceTiers(reg, WalkNames(lookupName, true));
      LayeredOntoSnoc(map[], tiers + [t.options], callOptions);
      assert tiers + [t.options] + [callOptions] == tiers + [t.options, callOptions];
      Success(MergeInPlace(gathered, FromHash(callOptions)).0.hash)
  }

  /** The outcome of a DSL call: the next engine, the bodies that ran, and the failure that ended the program. */
  datatype Step = Step(engine: Engine, trace: seq<Event>, error: Option<Error>)

  /** The registry `execute` looks its task up in: drained on the first execution, as it stands on later ones. */
  function ReadyRegistry(e: Engine): (r: Result<Registry, Error>)
    ensures r.Success? ==> FiltersGrown(e.reg, r.value)
    ensures e.executed ==> r.Success?
  {
    if e.executed then Success(e.reg) else LateEvaluations(e.reg, e.pending)
  }

  /**
   * `execute`: the deferred calls are drained on the first execution only;
   * then the task is looked up (an unknown task fails naming the stripped
   * name, and its qualified form inside a namespace), its options are
   * gathered, and it runs with its namespace pushed. The stack is the same
   * afterwards.
   */
  function Execute(e: Engine, name: string, callOptions: OptMap, fuel: nat, resolve: Resolver): (r: Step)
    ensures r.engine.executed && r.engine.scope == e.scope && r.engine.pending == e.pending
    ensures r.error.None? ==> r.engine.scopeReady
    ensures e.scopeReady ==> r.engine.scopeReady
    ensures !r.engine.scopeReady ==> r.engine == e.(executed := true)
    ensures e.executed ==> r.engine.reg == e.reg
    ensures !e.executed && LateEvaluations(e.reg, e.pending).Failure? ==>
              r == Step(e.(executed := true), [], Some(LateEvaluations(e.reg, e.pending).error))
    ensures !e.executed && LateEvaluations(e.reg, e.pending).Success? ==> r.engine.reg == LateEvaluations(e.reg, e.pending).value
    ensures FiltersGrown(e.reg, r.engine.reg)
    ensures forall i :: 0 <= i < |r.trace| ==> |r.trace[i].scope| == |e.scope| + 1 && r.trace[i].scope[..|e.scope|] == e.scope
  {
    match ReadyRegistry(e)
    case Failure(err) => Step(e.(executed := true), [], Some(err))
    case Success(reg) => LookUpAndRun(e.(reg := reg, executed := true, scopeReady := true), name, callOptions, fuel, resolve)
  }

  /**
   * The part of `execute` after the late evaluations: look the name up,
   * gather the options and run the task with its namespace pushed. An
   * unknown name is reported stripped of its `::`, and qualified by the
   * innermost namespace when there is one.
   */
  function LookUpAndRun(ready: Engine, name: string, callOptions: OptMap, fuel: nat, resolve: Resolver): (r: Step)
    ensures r.engine == ready
    ensures TaskLookup(ready.reg, ready.scope, name).None? ==>
              r.trace == [] && r.error == Some(UnknownTask(StripSep(name), if |ready.scope| > 0 then Some(Top(ready) + Sep + StripSep(name)) else None))
    ensures forall i :: 0 <= i < |r.trace| ==> |r.trace[i].scope| == |ready.scope| + 1 && r.trace[i].scope[..|ready.scope|] == ready.scope
    ensures forall i :: 0 <= i < |r.trace| ==>
              TaskLookup(ready.reg, ready.scope, name).Some?
              && r.trace[i].scope[|ready.scope|] == TaskLookup(ready.reg, ready.scope, name).value.ns
  {
    var lookupName := StripSep(name);
    match TaskLookup(ready.reg, ready.scope, name)
    case None =>
      var qualified := if |ready.scope| > 0 then Some(FullyQualifiedName(ready, lookupName)) else None;
      Step(ready, [], Some(UnknownTask(lookupName, qualified)))
    case Some(t) =>
      match CallOptions(ready.reg, lookupName, t, callOptions)
      case Failure(err) => Step(ready, [], Some(err))
      case Success(opts) =>
        var run := ExecuteTask(ready.reg, t, opts, ready.scope + [t.ns], fuel, resolve);
        assert forall i :: 0 <= i < |run.trace| ==> run.trace[i].scope[..|ready.scope|] == ready.scope by {
          assert (ready.scope + [t.ns])[..|ready.scope|] == ready.scope;
        }
        Step(ready, run.trace, run.error)
  }

  /**
   * Option precedence as a task run by `LookUpAndRun` sees it, for a task
   * whose filters are leaf tasks: the before filters, the body and the
   * after filters all see the walked namespaces' options, outermost first,
   * then the task's options, then the call's options, each overriding the
   * ones before; the body sees them resolved.
   */
  lemma LookUpLayersOptions(ready: Engine, name: string, callOptions: OptMap, fuel: nat, resolve: Resolver, t: Task)
    requires fuel >= 2
    requires TaskLookup(ready.reg, ready.scope, name) == Some(t)
    requires t.hasBody && AllLeaf(ready.reg, t.before) && AllLeaf(ready.reg, t.after)
    requires var w := WalkNames(StripSep(name), true); forall i :: 0 <= i < |w| ==> w[i] in ready.reg
    ensures var opts := Layered(NamespaceTiers(ready.reg, WalkNames(StripSep(name), true)) + [t.options, callOptions]);
            var scope := ready.scope + [t.ns];
            LookUpAndRun(ready, name, callOptions, fuel, resolve)
            == Step(ready, LeafEvents(ready.reg, t.before, opts, scope, resolve)
                           + [Event(Qualified(t), Materialize(opts, resolve), scope)]
                           + LeafEvents(ready.reg, t.after, opts, scope, resolve), None)
  {
    var tiers := NamespaceTiers(ready.reg, WalkNames(StripSep(name), true)) + [t.options, callOptions];
    var opts := CallOptions(ready.reg, StripSep(name), t, callOptions).value;
    assert opts == Layered(tiers);
    LayeredCoversTier(tiers, |tiers| - 2);
    MergeUnderCovering(t.options, opts);
    FilterOrder(ready.reg, t, opts, ready.scope + [t.ns], fuel, resolve);
  }

  /** Attaching filters leaves every namespace's options, hence every tier list, as it was. */
  lemma NamespaceTiersStable(a: Registry, b: Registry, names: seq<string>)
    requires FiltersGrown(a, b)
    ensures NamespaceTiers(a, names) == NamespaceTiers(b, names)
  {
    var ta, tb := NamespaceTiers(a, names), NamespaceTiers(b, names);
    forall i | 0 <= i < |names|
      ensures ta[i] == tb[i]
    {
      assert names[i] in a <==> names[i] in b;
    }
  }

  /**
   * Option precedence as `execute` delivers it, on the first execution and
   * on later ones alike, for a task whose filters are leaf tasks: its
   * filters and body see the options of each namespace the walk over the
   * (stripped) call name visits, outermost first, then the task's options,
   * then the call's options, each overriding the ones before; the body sees
   * them with deferred values resolved. The task is the one found after
   * the deferred filters are attached.
   */
  lemma ExecuteLayersOptions(e: Engine, name: string, callOptions: OptMap, fuel: nat, resolve: Resolver, t: Task)
    requires fuel >= 2 && ReadyRegistry(e).Success?
    requires TaskLookup(ReadyRegistry(e).value, e.scope, name) == Some(t)
    requires t.hasBody && AllLeaf(ReadyRegistry(e).value, t.before) && AllLeaf(ReadyRegistry(e).value, t.after)
    requires var w := WalkNames(StripSep(name), true); forall i :: 0 <= i < |w| ==> w[i] in e.reg
    ensures Execute(e, name, callOptions, fuel, resolve).error == None
    ensures var reg := ReadyRegistry(e).value;
            var opts := Layered(NamespaceTiers(e.reg, WalkNames(StripSep(name), true)) + [t.options, callOptions]);
            var scope := e.scope + [t.ns];
            Execute(e, name, callOptions, fuel, resolve).trace
            == LeafEvents(reg, t.before, opts, scope, resolve)
               + [Event(Qualified(t), Materialize(opts, resolve), scope)]
               + LeafEvents(reg, t.after, opts, scope, resolve)
  {
    var reg := ReadyRegistry(e).value;
    var ready := e.(reg := reg, executed := true, scopeReady := true);
    NamespaceTiersStable(e.reg, reg, WalkNames(StripSep(name), true));
    LookUpLayersOptions(ready, name, callOptions, fuel, resolve, t);
    assert Execute(e, name, callOptions, fuel, resolve) == LookUpAndRun(ready, name, callOptions, fuel, resolve);
  }

  /** A layering holds every key of every tier. */
  lemma LayeredCoversTier(tiers: seq<OptMap>, i: int)
    requires 0 <= i < |tiers|
    ensures tiers[i].Keys <= Layered(tiers).Keys
  {
    forall k | k in tiers[i] ensures k in Layered(tiers) {
      LayeredLatestWins(tiers, k);
    }
  }

  /**
   * The first `execute` attaches every queued `before`/`after` call: when
   * all targets can be located, each task's list of each kind ends with
   * the filters of the calls of that kind that locate it, in the order
   * the calls were made, located in the registry as it stands at that
   * moment, so a target may be declared after the call that names it.
   */
  lemma FirstExecuteAttachesDeferred(e: Engine, name: string, o: OptMap, fuel: nat, resolve: Resolver)
    requires !e.executed && PendingWF(e.pending)
    requires forall kind :: AllLocated(e.reg, Queue(e.pending, kind))
    ensures var reg := Execute(e, name, o, fuel, resolve).engine.reg;
            forall kind :: KindAppended(e.reg, reg, kind, Queue(e.pending, kind))
  {
    LateEvaluationsSucceedIff(e.reg, e.pending);
  }

  /** Calls deferred after the first `execute` are never attached: later executions see the same registry. */
  lemma LateEvaluationsRunOnce(e: Engine, first: string, o1: OptMap, kind: FilterKind, target: string, filters: seq<FilterRef>,
                               second: string, o2: OptMap, fuel: nat, resolve: Resolver)
    ensures var e1 := Execute(e, first, o1, fuel, resolve).engine;
            var d := Defer(e1, kind, target, filters);
            d.Success? ==> Execute(d.value, second, o2, fuel, resolve).engine.reg == e1.reg
  {
  }

  // ---------------------------------------------------------------------
  // Namespace blocks as scripts
  // ---------------------------------------------------------------------

  /** One DSL call inside a namespace block (or at the top level of a program). */
  datatype Stmt =
    | TaskStmt(name: string, options: OptMap, hasBody: bool)
    | NamespaceStmt(name: string, options: OptMap, body: seq<Stmt>)
    | OptionsStmt(options: OptMap)
    | BeforeStmt(target: string, filters: seq<FilterRef>)
    | AfterStmt(target: string, filters: seq<FilterRef>)
    | ExecuteStmt(name: string, options: OptMap)

  /** A call that either fails, leaving the engine as it was, or moves to a new engine and runs nothing. */
  function Lift(e: Engine, r: Result<Engine, Error>): Step
  {
    match r
    case Failure(err) => Step(e, [], Some(err))
    case Success(next) => Step(next, [], None)
  }

  /** One statement. Every successful statement leaves the namespace stack as it found it. */
  function RunStmt(e: Engine, s: Stmt, fuel: nat, resolve: Resolver): (r: Step)
    ensures r.error.None? ==> r.engine.scope == e.scope
    ensures r.error.None? ==> e.reg.Keys <= r.engine.reg.Keys
    decreases s, 0
  {
    match s
    case TaskStmt(name, options, hasBody) => Lift(e, DeclareTask(e, name, options, hasBody))
    case NamespaceStmt(name, options, body) => DeclareNamespace(e, name, options, body, fuel, resolve)
    case OptionsStmt(options) => Lift(e, SetOptions(e, options))
    case BeforeStmt(target, filters) => Lift(e, Defer(e, BeforeFilter, target, filters))
    case AfterStmt(target, filters) => Lift(e, Defer(e, AfterFilter, target, filters))
    case ExecuteStmt(name, options) => Execute(e, name, options, fuel, resolve)
  }

  /** Statements in order; the first failure ends the script. */
  function RunScript(e: Engine, script: seq<Stmt>, fuel: nat, resolve: Resolver): (r: Step)
    ensures r.error.None? ==> r.engine.scope == e.scope
    ensures r.error.None? ==> e.reg.Keys <= r.engine.reg.Keys
    decreases script, 1
  {
    if |script| == 0 then
      Step(e, [], None)
    else
      var first := RunStmt(e, script[0], fuel, resolve);
      if first.error.Some? then
        first
      else
        var rest := RunScript(first.engine, script[1..], fuel, resolve);
        Step(rest.engine, first.trace + rest.trace, rest.error)
  }

  /**
   * `namespace`: opens the namespace, runs its block with it innermost,
   * and pops it again, so the stack is restored whenever the block
   * completes.
   */
  function DeclareNamespace(e: Engine, name: string, options: OptMap, body: seq<Stmt>, fuel: nat, resolve: Resolver): (r: Step)
    ensures name == "" ==> r == Step(e, [], Some(EmptyNamespaceName))
    ensures r.error.None? ==> r.engine.scope == e.scope
    ensures r.error.None? ==> e.reg.Keys <= r.engine.reg.Keys && FullyQualifiedName(e, name) in r.engine.reg
    ensures r.error.None? ==> forall n :: n in WalkNames(RPartition(FullyQualifiedName(e, name)).0, false) ==> n in r.engine.reg
    decreases body, 2
  {
    match OpenNamespace(e, name, options)
    case Failure(err) => Step(e, [], Some(err))
    case Success(entered) =>
      var inner := RunScript(entered, body, fuel, resolve);
      if inner.error.Some? then
        inner
      else
        assert inner.engine.scope == e.scope + [entered.scope[|e.scope|]];
        Step(CloseNamespace(inner.engine), inner.trace, None)
  }

  /** A namespace with an empty block: its options are its old ones (or none) with the given ones merged over them, and the stack is restored. */
  lemma EmptyNamespaceBlock(e: Engine, name: string, options: OptMap, fuel: nat, resolve: Resolver)
    requires name != ""
    ensures var r := DeclareNamespace(e, name, options, [], fuel, resolve);
            var full := FullyQualifiedName(e, name);
            && r.error.None? && r.engine.scope == e.scope && r.trace == []
            && full in r.engine.reg
            && r.engine.reg[full].options.hash == Merge(if full in e.reg then e.reg[full].options.hash else map[], options)
  {
  }

  /**
   * Re-opening a namespace merges the new options over the ones it was
   * opened with: the namespace keeps a single entry, and the scope stack is
   * back where it started.
   */
  lemma ReopenMergesOptions(e: Engine, name: string, o1: OptMap, o2: OptMap, fuel: nat, resolve: Resolver)
    requires name != "" && FullyQualifiedName(e, name) !in e.reg
    ensures var first := DeclareNamespace(e, name, o1, [], fuel, resolve);
            var second := DeclareNamespace(first.engine, name, o2, [], fuel, resolve);
            var full := FullyQualifiedName(e, name);
            && second.error.None? && second.engine.scope == e.scope && full in second.engine.reg
            && second.engine.reg[full].options.hash == Merge(o1, o2)
  {
    var full := FullyQualifiedName(e, name);
    var first := DeclareNamespace(e, name, o1, [], fuel, resolve);
    EmptyNamespaceBlock(e, name, o1, fuel, resolve);
    var h1 := first.engine.reg[full].options.hash;
    assert h1 == Merge(map[], o1);
    MergeOntoEmpty(o1);
    assert FullyQualifiedName(first.engine, name) == full;
    EmptyNamespaceBlock(first.engine, name, o2, fuel, resolve);
  }

  /** A script of one statement is that statement. */
  lemma RunScriptSingle(e: Engine, s: Stmt, fuel: nat, resolve: Resolver)
    ensures RunScript(e, [s], fuel, resolve) == RunStmt(e, s, fuel, resolve)
  {
    var first := RunStmt(e, s, fuel, resolve);
    assert [s][0] == s && [s][1..] == [];
    AppendEmpty(first.trace);
  }

  /**
   * Statements run in order: the second part of a script runs from the
   * engine the first part leaves, the traces follow one another, and a
   * failure in the first part ends the whole script.
   */
  lemma {:induction false} RunScriptAppend(e: Engine, s1: seq<Stmt>, s2: seq<Stmt>, fuel: nat, resolve: Resolver)
    ensures var a := RunScript(e, s1, fuel, resolve);
            var r := RunScript(e, s1 + s2, fuel, resolve);
            if a.error.Some? then r == a
            else
              var b := RunScript(a.engine, s2, fuel, resolve);
              r == Step(b.engine, a.trace + b.trace, b.error)
    decreases |s1|
  {
    if |s1| == 0 {
      assert s1 + s2 == s2;
      EmptyAppend(RunScript(e, s2, fuel, resolve).trace);
    } else {
      assert (s1 + s2)[0] == s1[0] && (s1 + s2)[1..] == s1[1..] + s2;
      var first := RunStmt(e, s1[0], fuel, resolve);
      if first.error.None? {
        RunScriptAppend(first.engine, s1[1..], s2, fuel, resolve);
        var mid := RunScript(first.engine, s1[1..], fuel, resolve);
        if mid.error.None? {
          AppendAssoc(first.trace, mid.trace, RunScript(mid.engine, s2, fuel, resolve).trace);
        }
      }
    }
  }

  /**
   * A `task` call inside a namespace block declares the task in that
   * namespace: the block runs with the namespace innermost, so `k` is
   * qualified by the namespace's full name, at any depth of nesting.
   */
  lemma NamespaceBlockDeclaresTask(e: Engine, name: string, options: OptMap, k: string, taskOptions: OptMap, hasBody: bool,
                                   segs: seq<string>, fuel: nat, resolve: Resolver)
    requires EngineWF(e) && name != ""
    requires IsPath(segs) && FullyQualifiedName(e, name) == Join(segs) && IsSegment(k)
    ensures var r := DeclareNamespace(e, name, options, [TaskStmt(k, taskOptions, hasBody)], fuel, resolve);
            && r.error.None? && r.engine.scope == e.scope && r.trace == []
            && FindTask(r.engine.reg, Join(segs) + Sep + k) == Some(NewTask(k, Join(segs), taskOptions, hasBody))
  {
    OpenNamespaceKeepsWF(e, name, options);
    var entered := OpenNamespace(e, name, options).value;
    assert entered.scope == e.scope + [Join(segs)];
    BlockDeclaresTask(entered, k, taskOptions, hasBody, segs, fuel, resolve);
    var inner := RunScript(entered, [TaskStmt(k, taskOptions, hasBody)], fuel, resolve);
    assert DeclareNamespace(e, name, options, [TaskStmt(k, taskOptions, hasBody)], fuel, resolve) == Step(CloseNamespace(inner.engine), [], None);
  }

  /** The block of `NamespaceBlockDeclaresTask`, run with the namespace `Join(segs)` innermost. */
  lemma BlockDeclaresTask(entered: Engine, k: string, taskOptions: OptMap, hasBody: bool, segs: seq<string>, fuel: nat, resolve: Resolver)
    requires RegistryWF(entered.reg) && |entered.scope| > 0 && IsPath(segs) && Top(entered) == Join(segs) && IsSegment(k)
    ensures var r := RunScript(entered, [TaskStmt(k, taskOptions, hasBody)], fuel, resolve);
            && r.error.None? && r.trace == [] && r.engine.scope == entered.scope
            && FindTask(r.engine.reg, Join(segs) + Sep + k) == Some(NewTask(k, Join(segs), taskOptions, hasBody))
  {
    assert FullyQualifiedName(entered, k) == Join(segs) + Sep + k;
    DeclareTaskOnPath(entered, k, taskOptions, hasBody, segs, k);
    RunScriptSingle(entered, TaskStmt(k, taskOptions, hasBody), fuel, resolve);
  }

  /**
   * An `options` call inside a namespace block merges into that namespace:
   * its options become the old ones (or none), then the block's own
   * options, then the call's, each merged over the ones before.
   */
  lemma NamespaceBlockSetsOptions(e: Engine, name: string, options: OptMap, more: OptMap, fuel: nat, resolve: Resolver)
    requires EngineWF(e) && name != ""
    ensures var r := DeclareNamespace(e, name, options, [OptionsStmt(more)], fuel, resolve);
            var full := FullyQualifiedName(e, name);
            && r.error.None? && r.engine.scope == e.scope && r.trace == [] && full in r.engine.reg
            && r.engine.reg[full].options.hash == Merge(Merge(if full in e.reg then e.reg[full].options.hash else map[], options), more)
  {
    OpenNamespaceKeepsWF(e, name, options);
    var entered := OpenNamespace(e, name, options).value;
    var full := FullyQualifiedName(e, name);
    assert entered.scope == e.scope + [full] && Top(entered) == full;
    var merged := SetOptions(entered, more);
    assert merged.Success?;
    RunScriptSingle(entered, OptionsStmt(more), fuel, resolve);
    assert RunScript(entered, [OptionsStmt(more)], fuel, resolve) == Step(merged.value, [], None);
    assert DeclareNamespace(e, name, options, [OptionsStmt(more)], fuel, resolve) == Step(CloseNamespace(merged.value), [], None);
  }

  // ---------------------------------------------------------------------
  // Well-formedness is preserved by every call
  // ---------------------------------------------------------------------

  lemma DeclareTaskKeepsWF(e: Engine, name: string, options: OptMap, hasBody: bool)
    requires EngineWF(e)
    ensures DeclareTask(e, name, options, hasBody).Success? ==> EngineWF(DeclareTask(e, name, options, hasBody).value)
  {
    if name != "" {
      var (nsName, taskName) := RPartition(FullyQualifiedName(e, name));
      RPartitionSpec(FullyQualifiedName(e, name));
      if nsName != "" {
        var reg1 := BuildNamespaceHierarchy(e.reg, nsName);
        CreateEachKeepsWF(e.reg, WalkNames(nsName, false));
        if nsName in reg1 {
          var t := NewTask(taskName, reg1[nsName].name, options, hasBody);
          RegisterKeepsWF(reg1, t);
        }
      }
    }
  }

  lemma OpenNamespaceKeepsWF(e: Engine, name: string, options: OptMap)
    requires EngineWF(e)
    ensures OpenNamespace(e, name, options).Success? ==> EngineWF(OpenNamespace(e, name, options).value)
  {
    if name != "" {
      var full := FullyQualifiedName(e, name);
      var reg1 := BuildNamespaceHierarchy(e.reg, RPartition(full).0);
      CreateEachKeepsWF(e.reg, WalkNames(RPartition(full).0, false));
      FindOrCreateKeepsWF(reg1, full, FromHash(options));
    }
  }

  lemma ExecuteKeepsWF(e: Engine, name: string, callOptions: OptMap, fuel: nat, resolve: Resolver)
    requires EngineWF(e)
    ensures EngineWF(Execute(e, name, callOptions, fuel, resolve).engine)
  {
    var r := Execute(e, name, callOptions, fuel, resolve).engine;
    FiltersGrownKeepsWF(e.reg, r.reg);
    assert forall i :: 0 <= i < |r.scope| ==> r.scope[i] == e.scope[i];
  }

  lemma SetOptionsKeepsWF(e: Engine, options: OptMap)
    requires EngineWF(e)
    ensures SetOptions(e, options).Success? ==> EngineWF(SetOptions(e, options).value)
  {
    var r := SetOptions(e, options);
    if r.Success? {
      assert forall n :: n in r.value.reg ==> r.value.reg[n].name == e.reg[n].name;
      assert forall n :: n in r.value.reg ==> r.value.reg[n].tasks == e.reg[n].tasks;
    }
  }

  lemma DeferKeepsWF(e: Engine, kind: FilterKind, target: string, filters: seq<FilterRef>)
    requires EngineWF(e)
    ensures Defer(e, kind, target, filters).Success? ==> EngineWF(Defer(e, kind, target, filters).value)
  {
  }

  lemma {:induction false} RunStmtKeepsWF(e: Engine, s: Stmt, fuel: nat, resolve: Resolver)
    requires EngineWF(e)
    ensures EngineWF(RunStmt(e, s, fuel, resolve).engine)
    decreases s, 0
  {
    match s
    case TaskStmt(name, options, hasBody) => DeclareTaskKeepsWF(e, name, options, hasBody);
    case NamespaceStmt(name, options, body) => DeclareNamespaceKeepsWF(e, name, options, body, fuel, resolve);
    case OptionsStmt(options) => SetOptionsKeepsWF(e, options);
    case BeforeStmt(target, filters) => DeferKeepsWF(e, BeforeFilter, target, filters);
    case AfterStmt(target, filters) => DeferKeepsWF(e, AfterFilter, target, filters);
    case ExecuteStmt(name, options) => ExecuteKeepsWF(e, name, options, fuel, resolve);
  }

  lemma {:induction false} RunScriptKeepsWF(e: Engine, script: seq<Stmt>, fuel: nat, resolve: Resolver)
    requires EngineWF(e)
    ensures EngineWF(RunScript(e, script, fuel, resolve).engine)
    decreases script, 1
  {
    if |script| > 0 {
      RunStmtKeepsWF(e, script[0], fuel, resolve);
      var first := RunStmt(e, script[0], fuel, resolve);
      if first.error.None? {
        RunScriptKeepsWF(first.engine, script[1..], fuel, resolve);
      }
    }
  }

  lemma {:induction false} DeclareNamespaceKeepsWF(e: Engine, name: string, options: OptMap, body: seq<Stmt>, fuel: nat, resolve: Resolver)
    requires EngineWF(e)
    ensures EngineWF(DeclareNamespace(e, name, options, body, fuel, resolve).engine)
    decreases body, 2
  {
    OpenNamespaceKeepsWF(e, name, options);
    var o := OpenNamespace(e, name, options);
    if o.Success? {
      RunScriptKeepsWF(o.value, body, fuel, resolve);
      CloseKeepsWF(RunScript(o.value, body, fuel, resolve).engine);
    }
  }

  /** Popping the stack keeps the engine well formed. */
  lemma CloseKeepsWF(e: Engine)
    requires EngineWF(e)
    ensures EngineWF(CloseNamespace(e))
  {
    var r := CloseNamespace(e);
    forall i | 0 <= i < |r.scope|
      ensures r.scope[i] in r.reg
    {
      assert r.scope[i] == e.scope[i];
    }
  }

  /** A whole program run from a fresh engine ends in a well-formed engine, whatever it declares or executes. */
  lemma ProgramKeepsWF(script: seq<Stmt>, fuel: nat, resolve: Resolver)
    ensures EngineWF(RunScript(Fresh, script, fuel, resolve).engine)
  {
    RunScriptKeepsWF(Fresh, script, fuel, resolve);
  }
}

=== FILE: execution.dfy ===
/**
 * `Tasking::Task#execute`: the before-filter chain, the body, the
 * after-filter chain. Task bodies are abstract: a body records an `Event`
 * holding the task's qualified name, the resolved options it receives and
 * the scope stack at that moment. Filters are looked up by absolute name
 * only and run through this same function, so they neither gather
 * namespace options nor push a scope.
 *
 * Filter chains may form cycles, which the source does not reject; the
 * recursion is bounded by `fuel`, and running out is the deep-stack error
 * the Ruby interpreter would raise.
 */
module Execution {
  import opened Results
  import opened Paths
  import opened Options
  import opened Tasks
  import opened Namespaces

  /** What a task body records when it runs. */
  datatype Event = Event(task: string, options: map<string, string>, scope: seq<string>)

  /** The engine's failures; each one ends the run (the source aborts or raises). */
  datatype Error =
    | EmptyTaskName
    | EmptyNamespaceName
    | NotInNamespace(name: string)
    | UnknownFilterTarget(kind: FilterKind, target: string)
    | UnknownTask(name: string, qualified: Option<string>)
    | UnknownFilter(kind: FilterKind, filter: string, owner: string)
    | NoCurrentScope
    | MissingNamespace(nsName: string)
    | StackTooDeep(task: string)

  /** A trace of body events and, when the run stopped early, why. */
  datatype Run = Run(trace: seq<Event>, error: Option<Error>)

  /** `Task#task_lookup`: strip one leading `::`, then resolve as an absolute name only. */
  function FilterLookup(reg: Registry, filter: string): (r: Option<Task>)
    ensures StartsWithSep(filter) ==> r == FindTask(reg, filter[2..])
    ensures !StartsWithSep(filter) ==> r == FindTask(reg, filter)
  {
    FindTask(reg, StripSep(filter))
  }

  /** The event the body of `t` records when it receives the unresolved map `total`. */
  function BodyEvent(t: Task, total: OptMap, scope: seq<string>, resolve: Resolver): Event
  {
    Event(Qualified(t), Materialize(total, resolve), scope)
  }

  /**
   * `execute`: the effective options are the task's own options overridden
   * by the passed ones; the before filters run with that unresolved map,
   * then the body with every value resolved, then the after filters.
   */
  function ExecuteTask(reg: Registry, t: Task, passed: OptMap, scope: seq<string>, fuel: nat, resolve: Resolver): (r: Run)
    ensures fuel == 0 ==> r.error == Some(StackTooDeep(t.name))
    ensures forall i :: 0 <= i < |r.trace| ==> r.trace[i].scope == scope
    ensures forall i, k :: 0 <= i < |r.trace| && k in passed && passed[k].Lit? ==>
              k in r.trace[i].options && r.trace[i].options[k] == passed[k].value
    decreases fuel, 0, 0
  {
    if fuel == 0 then
      Run([], Some(StackTooDeep(t.name)))
    else
      var total := Merge(t.options, passed);
      var pre := RunChain(reg, t.before, total, BeforeFilter, t.name, scope, fuel - 1, resolve);
      if pre.error.Some? then
        pre
      else
        var body := if t.hasBody then [BodyEvent(t, total, scope, resolve)] else [];
        var post := RunChain(reg, t.after, total, AfterFilter, t.name, scope, fuel - 1, resolve);
        Run(pre.trace + body + post.trace, post.error)
  }

  /**
   * `execute_task_chain`: each filter in list order is looked up and run
   * with the same options; an unknown filter stops the chain with an error
   * naming the filter and the owning task.
   */
  function RunChain(reg: Registry, filters: seq<string>, options: OptMap, kind: FilterKind, owner: string,
                    scope: seq<string>, fuel: nat, resolve: Resolver): (r: Run)
    ensures forall i :: 0 <= i < |r.trace| ==> r.trace[i].scope == scope
    ensures forall i, k :: 0 <= i < |r.trace| && k in options && options[k].Lit? ==>
              k in r.trace[i].options && r.trace[i].options[k] == options[k].value
    decreases fuel, 1, |filters|
  {
    if |filters| == 0 then
      Run([], None)
    else
      match FilterLookup(reg, filters[0])
      case None => Run([], Some(UnknownFilter(kind, StripSep(filters[0]), owner)))
      case Some(ft) =>
        var first := ExecuteTask(reg, ft, options, scope, fuel, resolve);
        if first.error.Some? then
          first
        else
          var rest := RunChain(reg, filters[1..], options, kind, owner, scope, fuel, resolve);
          Run(first.trace + rest.trace, rest.error)
  }

  // ---------------------------------------------------------------------
  // Ordering of filters and body
  // ---------------------------------------------------------------------

  /** A filter that resolves to a task with a body and no filters of its own. */
  predicate LeafFilter(reg: Registry, filter: string) {
    var ft := FilterLookup(reg, filter);
    ft.Some? && ft.value.hasBody && ft.value.before == [] && ft.value.after == []
  }

  /** Every filter of the list is a leaf filter. */
  predicate AllLeaf(reg: Registry, filters: seq<string>)
    decreases |filters|
  {
    |filters| == 0 || (LeafFilter(reg, filters[0]) && AllLeaf(reg, filters[1..]))
  }

  /** The one event such a filter records: its own options under the options it was handed. */
  function LeafEvent(reg: Registry, filter: string, options: OptMap, scope: seq<string>, resolve: Resolver): Event
    requires LeafFilter(reg, filter)
  {
    var ft := FilterLookup(reg, filter).value;
    BodyEvent(ft, Merge(ft.options, options), scope, resolve)
  }

  function LeafEvents(reg: Registry, filters: seq<string>, options: OptMap, scope: seq<string>, resolve: Resolver): seq<Event>
    requires AllLeaf(reg, filters)
    decreases |filters|
  {
    if |filters| == 0 then []
    else [LeafEvent(reg, filters[0], options, scope, resolve)] + LeafEvents(reg, filters[1..], options, scope, resolve)
  }

  /** A leaf filter run with any options records exactly its one event. */
  lemma LeafRuns(reg: Registry, filter: string, options: OptMap, scope: seq<string>, fuel: nat, resolve: Resolver)
    requires fuel >= 1 && LeafFilter(reg, filter)
    ensures ExecuteTask(reg, FilterLookup(reg, filter).value, options, scope, fuel, resolve)
            == Run([LeafEvent(reg, filter, options, scope, resolve)], None)
  {
    var ft := FilterLookup(reg, filter).value;
    var total := Merge(ft.options, options);
    assert RunChain(reg, [], total, BeforeFilter, ft.name, scope, fuel - 1, resolve) == Run([], None);
    assert RunChain(reg, [], total, AfterFilter, ft.name, scope, fuel - 1, resolve) == Run([], None);
  }

  /** A chain whose first filter is a leaf records that filter's event and continues with the rest. */
  lemma LeafChainStep(reg: Registry, filters: seq<string>, options: OptMap, kind: FilterKind, owner: string,
                      scope: seq<string>, fuel: nat, resolve: Resolver)
    requires fuel >= 1 && |filters| > 0 && LeafFilter(reg, filters[0])
    ensures var rest := RunChain(reg, filters[1..], options, kind, owner, scope, fuel, resolve);
            RunChain(reg, filters, options, kind, owner, scope, fuel, resolve)
            == Run([LeafEvent(reg, filters[0], options, scope, resolve)] + rest.trace, rest.error)
  {
    LeafRuns(reg, filters[0], options, scope, fuel, resolve);
  }

  /** A chain of leaf filters records one event per filter, in list order, each with the chain's options underneath. */
  lemma {:induction false} LeafChain(reg: Registry, filters: seq<string>, options: OptMap, kind: FilterKind, owner: string,
                                     scope: seq<string>, fuel: nat, resolve: Resolver)
    requires fuel >= 1 && AllLeaf(reg, filters)
    ensures RunChain(reg, filters, options, kind, owner, scope, fuel, resolve)
            == Run(LeafEvents(reg, filters, options, scope, resolve), None)
    decreases |filters|
  {
    if |filters| > 0 {
      LeafChainStep(reg, filters, options, kind, owner, scope, fuel, resolve);
      LeafChain(reg, filters[1..], options, kind, owner, scope, fuel, resolve);
    }
  }

  /**
   * With leaf filters, a task records its before filters in list order,
   * then its own body, then its after filters in list order. Every filter
   * receives the task's unresolved merged map under its own options; the
   * body receives that map resolved.
   */
  lemma FilterOrder(reg: Registry, t: Task, passed: OptMap, scope: seq<string>, fuel: nat, resolve: Resolver)
    requires fuel >= 2 && t.hasBody
    requires AllLeaf(reg, t.before) && AllLeaf(reg, t.after)
    ensures ExecuteTask(reg, t, passed, scope, fuel, resolve)
            == Run(LeafEvents(reg, t.before, Merge(t.options, passed), scope, resolve)
                   + [BodyEvent(t, Merge(t.options, passed), scope, resolve)]
                   + LeafEvents(reg, t.after, Merge(t.options, passed), scope, resolve), None)
  {
    var total := Merge(t.options, passed);
    LeafChain(reg, t.before, total, BeforeFilter, t.name, scope, fuel - 1, resolve);
    LeafChain(reg, t.after, total, AfterFilter, t.name, scope, fuel - 1, resolve);
  }

  /**
   * An unknown filter stops the chain: the leaf filters before it have run,
   * the error names the filter (without its leading `::`) and the owner,
   * and nothing after it runs.
   */
  lemma {:induction false} ChainStopsAtUnknown(reg: Registry, prefix: seq<string>, unknown: string, suffix: seq<string>,
                                               options: OptMap, kind: FilterKind, owner: string, scope: seq<string>,
                                               fuel: nat, resolve: Resolver)
    requires fuel >= 1 && AllLeaf(reg, prefix) && FilterLookup(reg, unknown).None?
    ensures RunChain(reg, prefix + [unknown] + suffix, options, kind, owner, scope, fuel, resolve)
            == Run(LeafEvents(reg, prefix, options, scope, resolve), Some(UnknownFilter(kind, StripSep(unknown), owner)))
    decreases |prefix|
  {
    var filters := prefix + [unknown] + suffix;
    if |prefix| == 0 {
      assert filters[0] == unknown;
    } else {
      DropFirstOfSplice(prefix, unknown, suffix);
      LeafChainStep(reg, filters, options, kind, owner, scope, fuel, resolve);
      ChainStopsAtUnknown(reg, prefix[1..], unknown, suffix, options, kind, owner, scope, fuel, resolve);
    }
  }

  /** A list is its prefix, its `n`th element and its suffix. */
  lemma SpliceAt<T>(s: seq<T>, n: nat)
    requires n < |s|
    ensures s == s[..n] + [s[n]] + s[n + 1..]
  {
  }

  /** The list `a + [x] + b` without its head, for a non-empty `a`. */
  lemma DropFirstOfSplice<T>(a: seq<T>, x: T, b: seq<T>)
    requires |a| > 0
    ensures (a + [x] + b)[0] == a[0] && (a + [x] + b)[1..] == a[1..] + [x] + b
  {
  }

  /** The chain of a list whose `n`th filter is unknown, after `n` leaf filters. */
  lemma ChainStopsAt(reg: Registry, filters: seq<string>, n: nat, options: OptMap, kind: FilterKind, owner: string,
                     scope: seq<string>, fuel: nat, resolve: Resolver)
    requires fuel >= 1 && n < |filters|
    requires AllLeaf(reg, filters[..n]) && FilterLookup(reg, filters[n]).None?
    ensures RunChain(reg, filters, options, kind, owner, scope, fuel, resolve)
            == Run(LeafEvents(reg, filters[..n], options, scope, resolve), Some(UnknownFilter(kind, StripSep(filters[n]), owner)))
  {
    SpliceAt(filters, n);
    ChainStopsAtUnknown(reg, filters[..n], filters[n], filters[n + 1..], options, kind, owner, scope, fuel, resolve);
  }

  /** An unknown before filter means the body and the after filters never run. */
  lemma UnknownBeforeFilterSkipsBody(reg: Registry, t: Task, n: nat, passed: OptMap, scope: seq<string>, fuel: nat, resolve: Resolver)
    requires fuel >= 2 && n < |t.before|
    requires AllLeaf(reg, t.before[..n]) && FilterLookup(reg, t.before[n]).None?
    ensures ExecuteTask(reg, t, passed, scope, fuel, resolve)
            == Run(LeafEvents(reg, t.before[..n], Merge(t.options, passed), scope, resolve),
                   Some(UnknownFilter(BeforeFilter, StripSep(t.before[n]), t.name)))
  {
    ChainStopsAt(reg, t.before, n, Merge(t.options, passed), BeforeFilter, t.name, scope, fuel - 1, resolve);
    BeforeErrorEndsTask(reg, t, passed, scope, fuel, resolve);
  }

  /** A failing before chain is the outcome of the whole task. */
  lemma BeforeErrorEndsTask(reg: Registry, t: Task, passed: OptMap, scope: seq<string>, fuel: nat, resolve: Resolver)
    requires fuel >= 1
    ensures var pre := RunChain(reg, t.before, Merge(t.options, passed), BeforeFilter, t.name, scope, fuel - 1, resolve);
            pre.error.Some? ==> ExecuteTask(reg, t, passed, scope, fuel, resolve) == pre
  {
  }
}

=== FILE: namespaces.dfy ===
/**
 * `Tasking::Namespace`: a namespace value (its options and tasks) and the
 * registry that maps fully-qualified namespace names to namespaces. The
 * class-level hash of the source becomes an explicit `Registry` value that
 * every operation takes and returns.
 */
module Namespaces {
  import opened Results
  import opened Paths
  import opened Options
  import opened Tasks

  datatype Namespace = Namespace(name: string, options: OptionSet, tasks: map<string, Task>)

  /** The registry: fully-qualified namespace name to namespace. */
  type Registry = map<string, Namespace>

  /** The task stored under key `k` of namespace `n` belongs there. */
  predicate TaskAt(t: Task, n: string, k: string) {
    t.name == k && t.ns == n && IsSimpleName(k)
  }

  /**
   * What the engine keeps true of the registry: every namespace is stored
   * under its own name, every task under its own simple name in its own
   * namespace, and the empty name never holds tasks.
   */
  predicate RegistryWF(reg: Registry) {
    && (forall n :: n in reg ==> reg[n].name == n)
    && (forall n, k :: n in reg && k in reg[n].tasks ==> TaskAt(reg[n].tasks[k], n, k))
    && ("" in reg ==> reg[""].tasks == map[])
  }

  // ---------------------------------------------------------------------
  // Instance operations
  // ---------------------------------------------------------------------

  /** `Namespace.new`: no tasks, options built from the argument. */
  function NewNamespace(name: string, options: Arg): (ns: Namespace)
    ensures ns.name == name && ns.tasks == map[]
    ensures ns.options.hash == ExtractHash(options)
    ensures Equal(ns.options, options)
  {
    Namespace(name, Build(options), map[])
  }

  /** `register_task`: the task is stored under its name, replacing any task of that name. */
  function RegisterTask(ns: Namespace, t: Task): (r: Namespace)
    ensures r.name == ns.name && r.options == ns.options
    ensures r.tasks.Keys == ns.tasks.Keys + {t.name}
    ensures r.tasks[t.name] == t
    ensures forall k :: k in ns.tasks && k != t.name ==> r.tasks[k] == ns.tasks[k]
  {
    ns.(tasks := ns.tasks[t.name := t])
  }

  /** `unregister_task`: exactly the task's name is removed. */
  function UnregisterTask(ns: Namespace, t: Task): (r: Namespace)
    ensures r.name == ns.name && r.options == ns.options
    ensures r.tasks.Keys == ns.tasks.Keys - {t.name}
    ensures forall k :: k in r.tasks ==> r.tasks[k] == ns.tasks[k]
  {
    ns.(tasks := ns.tasks - {t.name})
  }

  /** Unregistering a freshly registered task restores the namespace. */
  lemma UnregisterUndoesRegister(ns: Namespace, t: Task)
    requires t.name !in ns.tasks
    ensures UnregisterTask(RegisterTask(ns, t), t) == ns
  {
    assert UnregisterTask(RegisterTask(ns, t), t).tasks == ns.tasks;
  }

  /** The instance `find_task`: the task stored under a simple name. */
  function FindTaskIn(ns: Namespace, name: string): (r: Option<Task>)
    ensures r.Some? <==> name in ns.tasks
    ensures r.Some? ==> r.value == ns.tasks[name]
  {
    if name in ns.tasks then Some(ns.tasks[name]) else None
  }

  /** Registering a task makes it the one found under its name. */
  lemma FindRegistered(ns: Namespace, t: Task, name: string)
    ensures FindTaskIn(RegisterTask(ns, t), name) == if name == t.name then Some(t) else FindTaskIn(ns, name)
  {
  }

  /** `merge_options`: the new keys are added, shared keys take the new value, the rest is kept. */
  function MergeOptions(ns: Namespace, options: OptMap): (r: Namespace)
    ensures r.name == ns.name && r.tasks == ns.tasks
    ensures r.options.hash.Keys == ns.options.hash.Keys + options.Keys
    ensures forall k :: k in options ==> r.options.hash[k] == options[k]
    ensures forall k :: k in ns.options.hash && k !in options ==> r.options.hash[k] == ns.options.hash[k]
  {
    ns.(options := MergeInPlace(ns.options, FromHash(options)).0)
  }

  /**
   * The instance `execute`: merges the options, as `merge_options` does,
   * before the block runs. The block is run by the engine.
   */
  function ExecuteNamespace(ns: Namespace, options: OptMap): (r: Namespace)
    ensures r.name == ns.name && r.tasks == ns.tasks
    ensures r.options.hash == Merge(ns.options.hash, options)
  {
    MergeOptions(ns, options)
  }

  /** Re-opening with the same options twice is re-opening once. */
  lemma ExecuteNamespaceIdempotent(ns: Namespace, options: OptMap)
    ensures ExecuteNamespace(ExecuteNamespace(ns, options), options) == ExecuteNamespace(ns, options)
  {
  }

  // ---------------------------------------------------------------------
  // Class-level registry operations
  // ---------------------------------------------------------------------

  /** `find_namespace`. */
  function FindNamespace(reg: Registry, name: string): (r: Option<Namespace>)
    ensures r.Some? <==> name in reg
    ensures r.Some? ==> r.value == reg[name]
  {
    if name in reg then Some(reg[name]) else None
  }

  /** `find_task_in_namespace`: absent when the namespace or the task is absent. */
  function FindTaskInNamespace(reg: Registry, nsName: string, taskName: string): (r: Option<Task>)
    ensures r.Some? <==> nsName in reg && taskName in reg[nsName].tasks
    ensures r.Some? ==> r.value == reg[nsName].tasks[taskName]
  {
    match FindNamespace(reg, nsName)
    case None => None
    case Some(ns) => FindTaskIn(ns, taskName)
  }

  /** `find_task`: split at the last `::`; the prefix names the namespace, the rest the task. */
  function FindTask(reg: Registry, fullName: string): (r: Option<Task>)
    ensures RPartition(fullName).0 !in reg ==> r.None?
    ensures r.Some? ==> var (n, k) := RPartition(fullName); n in reg && k in reg[n].tasks && r.value == reg[n].tasks[k]
  {
    var (nsName, taskName) := RPartition(fullName);
    FindTaskInNamespace(reg, nsName, taskName)
  }

  /** `add_namespace`: stores the namespace under its name. */
  function AddNamespace(reg: Registry, ns: Namespace): (r: Registry)
    ensures r.Keys == reg.Keys + {ns.name}
    ensures r[ns.name] == ns
    ensures forall n :: n in reg && n != ns.name ==> r[n] == reg[n]
  {
    reg[ns.name := ns]
  }

  /**
   * `find_or_create`: an existing namespace is returned untouched, and the
   * options argument is ignored; otherwise a new namespace with those
   * options is created and registered.
   */
  function FindOrCreate(reg: Registry, name: string, options: Arg): (r: (Registry, Namespace))
    ensures name in r.0 && r.1 == r.0[name]
    ensures name in reg ==> r.0 == reg
    ensures name !in reg ==> r.0.Keys == reg.Keys + {name}
    ensures name !in reg ==> r.1.name == name && r.1.tasks == map[] && r.1.options.hash == ExtractHash(options)
    ensures forall n :: n in reg ==> n in r.0 && r.0[n] == reg[n]
  {
    match FindNamespace(reg, name)
    case Some(ns) => (reg, ns)
    case None =>
      var ns := NewNamespace(name, options);
      (AddNamespace(reg, ns), ns)
  }

  /** `all`: every registered namespace. */
  function All(reg: Registry): (r: set<Namespace>)
    ensures forall n :: n in reg ==> reg[n] in r
    ensures forall ns :: ns in r ==> exists n :: n in reg && reg[n] == ns
  {
    reg.Values
  }

  /** `parent_namespace`: nil for a name without `::`, else the entry for the name minus its last segment. */
  function ParentNamespace(reg: Registry, ns: Namespace): (r: Option<Namespace>)
    ensures !HasSep(ns.name) ==> r.None?
    ensures r.Some? ==> RPartition(ns.name).0 != "" && r == FindNamespace(reg, RPartition(ns.name).0)
    ensures RPartition(ns.name).0 != "" ==> r == FindNamespace(reg, RPartition(ns.name).0)
  {
    RPartitionSpec(ns.name);
    var (parentName, _) := RPartition(ns.name);
    if parentName == "" then None else FindNamespace(reg, parentName)
  }

  // ---------------------------------------------------------------------
  // Lemmas
  // ---------------------------------------------------------------------

  /** On a well-formed registry `all` lists exactly the namespaces `find_namespace` finds by name. */
  lemma AllMatchesFind(reg: Registry, ns: Namespace)
    requires RegistryWF(reg)
    ensures ns in All(reg) <==> FindNamespace(reg, ns.name) == Some(ns)
  {
  }

  /** `find_or_create` never re-creates: a second call returns the same namespace and registry. */
  lemma FindOrCreateTwice(reg: Registry, name: string, first: Arg, second: Arg)
    ensures var (reg1, ns1) := FindOrCreate(reg, name, first);
            FindOrCreate(reg1, name, second) == (reg1, ns1)
  {
  }

  /** The parent of a well-formed path with more than one segment is the path minus its last segment. */
  lemma ParentOfPath(reg: Registry, ns: Namespace, segs: seq<string>)
    requires IsPath(segs) && ns.name == Join(segs)
    ensures |segs| == 1 ==> ParentNamespace(reg, ns).None?
    ensures |segs| > 1 ==> ParentNamespace(reg, ns) == FindNamespace(reg, Join(segs[..|segs| - 1]))
  {
    RPartitionJoin(segs);
    if |segs| > 1 {
      var init := segs[..|segs| - 1];
      assert init[0] == segs[0];
      assert |Join(init)| > 0 by { JoinNonEmpty(init); }
    }
  }

  lemma {:induction false} JoinNonEmpty(segs: seq<string>)
    requires IsPath(segs)
    ensures |Join(segs)| >= |segs[0]| > 0
    decreases |segs|
  {
    if |segs| > 1 {
      var init := segs[..|segs| - 1];
      assert init[0] == segs[0];
      JoinNonEmpty(init);
    }
  }

  /**
   * `find_task` on `n::k` is `find_task_in_namespace(n, k)`, so on a
   * well-formed registry it finds exactly the task stored under `k` in `n`.
   */
  lemma FindTaskQualified(reg: Registry, n: string, k: string)
    requires IsSimpleName(k)
    ensures FindTask(reg, n + Sep + k) == FindTaskInNamespace(reg, n, k)
  {
    RPartitionAppend(n, k);
  }

  /** A registered task is found under its qualified name. */
  lemma FindTaskFindsRegistered(reg: Registry, t: Task)
    requires RegistryWF(reg)
    requires t.ns in reg && t.name in reg[t.ns].tasks && reg[t.ns].tasks[t.name] == t
    ensures FindTask(reg, Qualified(t)) == Some(t)
  {
    FindTaskQualified(reg, t.ns, t.name);
  }

  /** On a well-formed registry a name without `::` finds no task: the empty namespace holds none. */
  lemma FindTaskNeedsSep(reg: Registry, name: string)
    requires RegistryWF(reg) && !HasSep(name)
    ensures FindTask(reg, name).None?
  {
    RPartitionSpec(name);
  }

  /** `find_task_in_namespace` matches only simple names on a well-formed registry. */
  lemma FindTaskInNamespaceSimpleOnly(reg: Registry, nsName: string, name: string)
    requires RegistryWF(reg) && HasSep(name)
    ensures FindTaskInNamespace(reg, nsName, name).None?
  {
  }

  /** Registering a task under its own name in its own namespace keeps the registry well formed. */
  lemma RegisterKeepsWF(reg: Registry, t: Task)
    requires RegistryWF(reg) && t.ns in reg && t.ns != "" && IsSimpleName(t.name)
    ensures RegistryWF(reg[t.ns := RegisterTask(reg[t.ns], t)])
  {
  }

  /** Creating a namespace with `find_or_create` keeps the registry well formed. */
  lemma FindOrCreateKeepsWF(reg: Registry, name: string, options: Arg)
    requires RegistryWF(reg)
    ensures RegistryWF(FindOrCreate(reg, name, options).0)
  {
  }
}

=== FILE: options.dfy ===
/**
 * Option maps and the `Tasking::Options` wrapper: a right-biased merge, the
 * layering of several maps, and lazily evaluated values.
 *
 * A value is either a literal or a deferred computation. A deferred value is
 * named by an identifier, and what it computes is supplied by a `Resolver`:
 * the resolver receives the identifier and the whole option map the value is
 * resolved against.
 */
module Options {
  import opened Results

  datatype Value = Lit(value: string) | Lazy(id: nat)

  /** An option hash: symbol keys (as strings) to values. */
  type OptMap = map<string, Value>

  /** What each deferred value computes from the map it is resolved against. */
  type Resolver = (nat, OptMap) -> string

  /** Ruby's `Hash#merge` / `merge!`: the keys of `over` win, the other keys of `base` are kept. */
  function Merge(base: OptMap, over: OptMap): (r: OptMap)
    ensures r.Keys == base.Keys + over.Keys
    ensures forall k :: k in over ==> r[k] == over[k]
    ensures forall k :: k in base && k !in over ==> r[k] == base[k]
  {
    base + over
  }

  /** Merging a map into itself changes nothing. */
  lemma MergeSelf(m: OptMap)
    ensures Merge(m, m) == m
  {
  }

  /** Merging onto an empty map gives the merged map. */
  lemma MergeOntoEmpty(m: OptMap)
    ensures Merge(map[], m) == m
  {
  }

  /** Merging `a` under a map that already has all of `a`'s keys changes nothing. */
  lemma MergeUnderCovering(a: OptMap, b: OptMap)
    requires a.Keys <= b.Keys
    ensures Merge(a, b) == b
  {
  }

  /** `base` with each of `tiers` merged over it in turn, the first tier outermost. */
  function LayeredOnto(base: OptMap, tiers: seq<OptMap>): OptMap
    decreases |tiers|
  {
    if |tiers| == 0 then base else LayeredOnto(Merge(base, tiers[0]), tiers[1..])
  }

  /** Successive right-biased merges of `tiers` onto an empty map. */
  function Layered(tiers: seq<OptMap>): OptMap
  {
    LayeredOnto(map[], tiers)
  }

  /** The latest tier that holds `k` decides its value. */
  ghost predicate DecidedBy(tiers: seq<OptMap>, k: string, i: int) {
    0 <= i < |tiers| && k in tiers[i] && forall j :: i < j < |tiers| ==> k !in tiers[j]
  }

  lemma {:induction false} LayeredOntoLatestWins(base: OptMap, tiers: seq<OptMap>, k: string)
    ensures k in LayeredOnto(base, tiers) <==> k in base || exists i :: 0 <= i < |tiers| && k in tiers[i]
    ensures forall i :: DecidedBy(tiers, k, i) ==> LayeredOnto(base, tiers)[k] == tiers[i][k]
    ensures k in base && (forall i :: 0 <= i < |tiers| ==> k !in tiers[i]) ==> LayeredOnto(base, tiers)[k] == base[k]
    decreases |tiers|
  {
    if |tiers| > 0 {
      var rest := tiers[1..];
      LayeredOntoLatestWins(Merge(base, tiers[0]), rest, k);
      forall i | DecidedBy(tiers, k, i)
        ensures LayeredOnto(base, tiers)[k] == tiers[i][k]
      {
        if i > 0 {
          assert DecidedBy(rest, k, i - 1);
        } else {
          assert forall j :: 0 <= j < |rest| ==> k !in rest[j] by {
            forall j | 0 <= j < |rest| ensures k !in rest[j] {
              assert rest[j] == tiers[j + 1];
            }
          }
        }
      }
      if exists i :: 0 <= i < |rest| && k in rest[i] {
        var i :| 0 <= i < |rest| && k in rest[i];
        assert k in tiers[i + 1];
      }
      if k in base && forall i :: 0 <= i < |tiers| ==> k !in tiers[i] {
        assert k !in tiers[0];
        assert forall j :: 0 <= j < |rest| ==> k !in rest[j] by {
          forall j | 0 <= j < |rest| ensures k !in rest[j] {
            assert rest[j] == tiers[j + 1];
          }
        }
      }
    }
  }

  /**
   * Layering keeps exactly the keys of all tiers, and each key takes its
   * value from the last tier that holds it.
   */
  lemma LayeredLatestWins(tiers: seq<OptMap>, k: string)
    ensures k in Layered(tiers) <==> exists i :: 0 <= i < |tiers| && k in tiers[i]
    ensures forall i :: DecidedBy(tiers, k, i) ==> Layered(tiers)[k] == tiers[i][k]
  {
    LayeredOntoLatestWins(map[], tiers, k);
  }

  /** Merging one more tier over a layering is layering with that tier last. */
  lemma {:induction false} LayeredOntoSnoc(base: OptMap, tiers: seq<OptMap>, m: OptMap)
    ensures LayeredOnto(base, tiers + [m]) == Merge(LayeredOnto(base, tiers), m)
    decreases |tiers|
  {
    if |tiers| == 0 {
      assert (tiers + [m])[1..] == [];
    } else {
      assert (tiers + [m])[0] == tiers[0];
      assert (tiers + [m])[1..] == tiers[1..] + [m];
      LayeredOntoSnoc(Merge(base, tiers[0]), tiers[1..], m);
    }
  }

  /** `respond_to?(:call) ? value.call(whole) : value` for one value. */
  function ResolveValue(v: Value, whole: OptMap, resolve: Resolver): string
  {
    match v
    case Lit(x) => x
    case Lazy(id) => resolve(id, whole)
  }

  /**
   * Every value of `m` resolved against the whole, still unresolved map `m`:
   * literals are kept, deferred values are replaced by their result.
   */
  function Materialize(m: OptMap, resolve: Resolver): (r: map<string, string>)
    ensures r.Keys == m.Keys
    ensures forall k :: k in m && m[k].Lit? ==> r[k] == m[k].value
    ensures forall k :: k in m && m[k].Lazy? ==> r[k] == resolve(m[k].id, m)
  {
    map k | k in m :: ResolveValue(m[k], m, resolve)
  }

  // ---------------------------------------------------------------------
  // The `Tasking::Options` class
  // ---------------------------------------------------------------------

  /** An `Options` instance, wrapping its `options_hash`. */
  datatype OptionSet = OptionSet(hash: OptMap)

  /** An argument that may be an `Options` instance or a raw hash. */
  datatype Arg = FromSet(optionSet: OptionSet) | FromHash(raw: OptMap)

  /** `extract_options_hash`: the hash inside an `Options`, or the raw hash itself. */
  function ExtractHash(other: Arg): OptMap
  {
    match other
    case FromSet(o) => o.hash
    case FromHash(h) => h
  }

  /** `Options.build`: an `Options` passes through unchanged, a hash is wrapped. */
  function Build(x: Arg): (r: OptionSet)
    ensures x.FromSet? ==> r == x.optionSet
    ensures r.hash == ExtractHash(x)
  {
    match x
    case FromSet(o) => o
    case FromHash(h) => OptionSet(h)
  }

  /** Building from something already built is the identity. */
  lemma BuildIdempotent(x: Arg)
    ensures Build(FromSet(Build(x))) == Build(x)
  {
  }

  /** `merge`: a new set whose keys from `other` win; the receiver, a value, is unchanged. */
  function MergeSet(o: OptionSet, other: Arg): (r: OptionSet)
    ensures r.hash.Keys == o.hash.Keys + ExtractHash(other).Keys
    ensures forall k :: k in ExtractHash(other) ==> r.hash[k] == ExtractHash(other)[k]
    ensures forall k :: k in o.hash && k !in ExtractHash(other) ==> r.hash[k] == o.hash[k]
  {
    OptionSet(Merge(o.hash, ExtractHash(other)))
  }

  /**
   * `merge!`: the receiver's new value and the returned object. Both are the
   * receiver itself, holding the same right-biased merge `merge` computes.
   */
  function MergeInPlace(o: OptionSet, other: Arg): (r: (OptionSet, OptionSet))
    ensures r.0 == r.1
    ensures r.0 == MergeSet(o, other)
  {
    var updated := OptionSet(Merge(o.hash, ExtractHash(other)));
    (updated, updated)
  }

  /** `[]`: a literal as is, a deferred value applied to the whole set, `nil` for a missing key. */
  function Get(o: OptionSet, key: string, resolve: Resolver): (r: Option<string>)
    ensures r.Some? <==> key in o.hash
    ensures key in o.hash && o.hash[key].Lit? ==> r == Some(o.hash[key].value)
    ensures key in o.hash && o.hash[key].Lazy? ==> r == Some(resolve(o.hash[key].id, o.hash))
  {
    if key in o.hash then Some(ResolveValue(o.hash[key], o.hash, resolve)) else None
  }

  /** `==`: the wrapped hashes are equal. */
  function Equal(o: OptionSet, other: Arg): (r: bool)
    ensures r <==> o == Build(other)
  {
    o.hash == ExtractHash(other)
  }

  /** `materialized_hash`: the same keys, each value resolved against the whole set. */
  function MaterializedHash(o: OptionSet, resolve: Resolver): (r: map<string, string>)
    ensures r.Keys == o.hash.Keys
    ensures forall k :: k in o.hash && o.hash[k].Lit? ==> r[k] == o.hash[k].value
    ensures forall k :: k in o.hash && o.hash[k].Lazy? ==> r[k] == resolve(o.hash[k].id, o.hash)
  {
    Materialize(o.hash, resolve)
  }

  /** `[]` agrees with `materialized_hash` key by key. */
  lemma GetAgreesWithMaterialized(o: OptionSet, key: string, resolve: Resolver)
    ensures Get(o, key, resolve) == if key in o.hash then Some(MaterializedHash(o, resolve)[key]) else None
  {
  }

  /** `merge`, `merge!` and `==` treat an `Options` argument and its raw hash identically. */
  lemma SetAndHashArgumentsAgree(o: OptionSet, h: OptMap)
    ensures MergeSet(o, FromSet(OptionSet(h))) == MergeSet(o, FromHash(h))
    ensures MergeInPlace(o, FromSet(OptionSet(h))) == MergeInPlace(o, FromHash(h))
    ensures Equal(o, FromSet(OptionSet(h))) == Equal(o, FromHash(h))
  {
  }
}

=== FILE: paths.dfy ===
/**
 * `::`-separated names as the engine manipulates them: Ruby's
 * `rpartition('::')`, `split('::')`, the one leading `::` that marks an
 * absolute name, and the cumulative walk over namespace prefixes.
 *
 * The functions take arbitrary strings and behave like the Ruby string
 * methods; the lemmas relate them on well-formed paths, whose segments are
 * non-empty and contain no colon.
 */
module Paths {
  import opened Results

  /** The separator between the segments of a fully-qualified name. */
  const Sep: string := "::"

  /** A `::` starts at index `i` of `s`. */
  predicate SepAt(s: string, i: int) {
    0 <= i && i + 1 < |s| && s[i] == ':' && s[i + 1] == ':'
  }

  predicate HasSep(s: string) {
    exists i :: 0 <= i < |s| && SepAt(s, i)
  }

  /** The absolute-name marker: the name begins with `::`. */
  predicate StartsWithSep(s: string) {
    SepAt(s, 0)
  }

  predicate NoColon(s: string) {
    forall i :: 0 <= i < |s| ==> s[i] != ':'
  }

  /** One segment of a well-formed path. */
  predicate IsSegment(s: string) {
    |s| > 0 && NoColon(s)
  }

  /** A well-formed path: at least one segment, every segment well-formed. */
  predicate IsPath(segs: seq<string>) {
    |segs| > 0 && forall i :: 0 <= i < |segs| ==> IsSegment(segs[i])
  }

  /** Removes one leading `::` (the in-place `slice!(0, 2)` of the source, as a pure function). */
  function StripSep(s: string): (r: string)
    ensures StartsWithSep(s) ==> s == Sep + r && |r| == |s| - 2
    ensures !StartsWithSep(s) ==> r == s
  {
    if StartsWithSep(s) then s[2..] else s
  }

  /** The start of the last `::` in `s`, or -1 when there is none. */
  function LastSep(s: string): int
    decreases |s|
  {
    if |s| < 2 then -1
    else if SepAt(s, |s| - 2) then |s| - 2
    else LastSep(s[..|s| - 1])
  }

  /** `LastSep` finds a `::` when there is one, and no `::` starts after it. */
  lemma {:induction false} LastSepSpec(s: string)
    ensures LastSep(s) == -1 || SepAt(s, LastSep(s))
    ensures forall j :: LastSep(s) < j ==> !SepAt(s, j)
    decreases |s|
  {
    if |s| >= 2 && !SepAt(s, |s| - 2) {
      var prefix := s[..|s| - 1];
      LastSepSpec(prefix);
      if LastSep(s) != -1 {
        assert SepAt(prefix, LastSep(s));
      }
      forall j | LastSep(s) < j
        ensures !SepAt(s, j)
      {
        if SepAt(s, j) && j < |s| - 2 {
          assert SepAt(prefix, j);
        }
      }
    }
  }

  /**
   * Ruby's `rpartition('::')` without the separator: the text before and
   * after the last `::`, or `("", s)` when `s` has none.
   */
  function RPartition(s: string): (string, string)
  {
    var i := LastSep(s);
    if i < 0 then
      ("", s)
    else
      LastSepSpec(s);
      (s[..i], s[i + 2..])
  }

  /**
   * `rpartition` cuts `s` at a `::` when it has one, and the tail after the
   * cut holds no `::` and does not start with a colon; a string without
   * `::` is all tail.
   */
  lemma RPartitionSpec(s: string)
    ensures HasSep(s) ==> s == RPartition(s).0 + Sep + RPartition(s).1
    ensures HasSep(s) ==> IsSimpleName(RPartition(s).1)
    ensures !HasSep(s) ==> RPartition(s) == ("", s)
  {
    LastSepSpec(s);
    var i := LastSep(s);
    if HasSep(s) {
      var k :| 0 <= k < |s| && SepAt(s, k);
      assert i >= 0;
      var tail := s[i + 2..];
      assert forall j :: SepAt(tail, j) ==> SepAt(s, i + 2 + j);
      assert |tail| > 0 ==> !SepAt(s, i + 1);
      assert s == s[..i] + Sep + tail;
    }
  }

  /** `segs` joined by `::`; the empty sequence joins to the empty string. */
  function Join(segs: seq<string>): string
  {
    if |segs| == 0 then ""
    else if |segs| == 1 then segs[0]
    else Join(segs[..|segs| - 1]) + Sep + segs[|segs| - 1]
  }

  /**
   * The fields of Ruby's `split('::')` before trailing empty fields are
   * dropped: the string is scanned from the left and every `::` found ends
   * a field.
   */
  function SplitFields(s: string): (r: seq<string>)
    ensures |r| > 0
    decreases |s|
  {
    if |s| < 2 then [s]
    else if StartsWithSep(s) then [""] + SplitFields(s[2..])
    else
      var rest := SplitFields(s[1..]);
      [[s[0]] + rest[0]] + rest[1..]
  }

  function DropTrailingEmpty(fields: seq<string>): seq<string>
  {
    if |fields| > 0 && fields[|fields| - 1] == "" then DropTrailingEmpty(fields[..|fields| - 1])
    else fields
  }

  /** Ruby's `split('::')`: trailing empty fields are dropped, so `""` splits to `[]`. */
  function Split(s: string): seq<string>
  {
    DropTrailingEmpty(SplitFields(s))
  }

  /** Ruby's `Array#pop` as used by the walk: drops the last element when there is one. */
  function DropLast<T>(xs: seq<T>): (r: seq<T>)
    ensures |xs| > 0 ==> xs == r + [xs[|xs| - 1]]
    ensures |xs| == 0 ==> r == []
  {
    if |xs| > 0 then xs[..|xs| - 1] else xs
  }

  /** The cumulative prefixes `s1`, `s1::s2`, ..., `s1::...::sn` of `segs`, outermost first. */
  function Prefixes(segs: seq<string>): seq<string>
  {
    seq(|segs|, k requires 0 <= k < |segs| => Join(segs[..k + 1]))
  }

  /**
   * The namespace names `walk_namespace_tree_to` yields for `name`: the
   * cumulative prefixes of its segments, without the last segment in task
   * mode.
   */
  function WalkNames(name: string, taskMode: bool): seq<string>
  {
    var segs := Split(name);
    Prefixes(if taskMode then DropLast(segs) else segs)
  }

  /** `walk_namespace_tree_to`: the left-to-right loop that accumulates the current prefix. */
  method WalkNamespaceTree(name: string, taskMode: bool) returns (visited: seq<string>)
    ensures visited == WalkNames(name, taskMode)
    ensures forall k :: 0 <= k < |visited| ==> visited[k] == Join((if taskMode then DropLast(Split(name)) else Split(name))[..k + 1])
  {
    var segs := Split(name);
    if taskMode {
      segs := DropLast(segs);
    }
    var current: Option<string> := None;
    visited := [];
    var i := 0;
    while i < |segs|
      invariant 0 <= i <= |segs|
      invariant |visited| == i
      invariant forall k :: 0 <= k < i ==> visited[k] == Join(segs[..k + 1])
      invariant i == 0 <==> current.None?
      invariant i > 0 ==> current == Some(Join(segs[..i]))
    {
      if current.None? {
        current := Some(segs[i]);
      } else {
        current := Some(current.value + Sep + segs[i]);
      }
      TakeOfTake(segs, i);
      assert current == Some(Join(segs[..i + 1]));
      visited := visited + [current.value];
      i := i + 1;
    }
  }

  // ---------------------------------------------------------------------
  // Lemmas relating the string functions on well-formed paths
  // ---------------------------------------------------------------------

  /** A string without colons has no `::` in it. */
  lemma NoColonNoSep(s: string)
    requires NoColon(s)
    ensures !HasSep(s)
  {
  }

  /**
   * A name that can stand after the last `::`: it holds no `::` and does
   * not start with a colon (which would form a later `::`). `rpartition`
   * only ever yields such tails.
   */
  predicate IsSimpleName(b: string) {
    !HasSep(b) && (|b| > 0 ==> b[0] != ':')
  }

  lemma NoColonSimple(b: string)
    requires NoColon(b)
    ensures IsSimpleName(b)
  {
  }

  /** The last `::` of `a::b` is the one before `b` when `b` is a simple name. */
  lemma LastSepBeforeSimpleName(a: string, b: string)
    requires IsSimpleName(b)
    ensures LastSep(a + Sep + b) == |a|
  {
    var s := a + Sep + b;
    LastSepSpec(s);
    assert SepAt(s, |a|);
    forall j | |a| < j
      ensures !SepAt(s, j)
    {
      if j == |a| + 1 && |b| > 0 {
        assert s[|a| + 2] == b[0];
      } else if SepAt(s, j) && j >= |a| + 2 {
        assert SepAt(b, j - |a| - 2);
      }
    }
  }

  /** `rpartition` splits `a::b` back into `a` and `b` when `b` is a simple name. */
  lemma RPartitionAppend(a: string, b: string)
    requires IsSimpleName(b)
    ensures RPartition(a + Sep + b) == (a, b)
  {
    var s := a + Sep + b;
    LastSepBeforeSimpleName(a, b);
    assert SepAt(s, |a|);
    assert s[..|a|] == a;
    assert s[|a| + 2..] == b;
  }

  /** A single colon-free segment has no `::`, so `rpartition` puts it all after the separator. */
  lemma RPartitionSegment(a: string)
    requires NoColon(a)
    ensures RPartition(a) == ("", a)
  {
    NoColonNoSep(a);
    RPartitionSpec(a);
  }

  lemma {:induction false} JoinAppend(a: seq<string>, b: seq<string>)
    requires |a| > 0 && |b| > 0
    ensures Join(a + b) == Join(a) + Sep + Join(b)
    decreases |b|
  {
    var ab := a + b;
    if |b| == 1 {
      assert ab[..|ab| - 1] == a;
    } else {
      var b' := b[..|b| - 1];
      assert ab[..|ab| - 1] == a + b';
      assert ab[|ab| - 1] == b[|b| - 1];
      JoinAppend(a, b');
    }
  }

  lemma JoinSnoc(a: seq<string>, x: string)
    requires |a| > 0
    ensures Join(a + [x]) == Join(a) + Sep + x
  {
    assert (a + [x])[..|a|] == a;
  }

  lemma JoinCons(x: string, b: seq<string>)
    requires |b| > 0
    ensures Join([x] + b) == x + Sep + Join(b)
  {
    JoinAppend([x], b);
  }

  lemma {:induction false} SplitFieldsNoColon(x: string)
    requires NoColon(x)
    ensures SplitFields(x) == [x]
    decreases |x|
  {
    if |x| >= 2 {
      SplitFieldsNoColon(x[1..]);
      assert [x[0]] + x[1..] == x;
    }
  }

  lemma {:induction false} SplitFieldsCons(x: string, y: string)
    requires NoColon(x)
    ensures SplitFields(x + Sep + y) == [x] + SplitFields(y)
    decreases |x|
  {
    var s := x + Sep + y;
    if |x| == 0 {
      assert s == Sep + y;
      assert s[2..] == y;
    } else {
      assert s[1..] == x[1..] + Sep + y;
      SplitFieldsCons(x[1..], y);
      assert [x[0]] + x[1..] == x;
    }
  }

  lemma {:induction false} SplitFieldsJoin(segs: seq<string>)
    requires |segs| > 0
    requires forall i :: 0 <= i < |segs| ==> NoColon(segs[i])
    ensures SplitFields(Join(segs)) == segs
    decreases |segs|
  {
    if |segs| == 1 {
      SplitFieldsNoColon(segs[0]);
    } else {
      var tail := segs[1..];
      assert segs == [segs[0]] + tail;
      JoinCons(segs[0], tail);
      SplitFieldsCons(segs[0], Join(tail));
      SplitFieldsJoin(tail);
    }
  }

  /** `split('::')` inverts `Join` on well-formed paths. */
  lemma SplitJoin(segs: seq<string>)
    requires IsPath(segs)
    ensures Split(Join(segs)) == segs
  {
    SplitFieldsJoin(segs);
  }

  /** `rpartition('::')` splits a multi-segment path at its last segment. */
  lemma RPartitionJoin(segs: seq<string>)
    requires IsPath(segs)
    ensures |segs| == 1 ==> RPartition(Join(segs)) == ("", segs[0])
    ensures |segs| > 1 ==> RPartition(Join(segs)) == (Join(segs[..|segs| - 1]), segs[|segs| - 1])
  {
    if |segs| == 1 {
      RPartitionSegment(segs[0]);
    } else {
      RPartitionAppend(Join(segs[..|segs| - 1]), segs[|segs| - 1]);
    }
  }

  /** The namespace walk over a well-formed path visits every prefix, ending with the path itself. */
  lemma WalkPath(segs: seq<string>)
    requires IsPath(segs)
    ensures WalkNames(Join(segs), false) == Prefixes(segs)
    ensures |Prefixes(segs)| == |segs| && Prefixes(segs)[|segs| - 1] == Join(segs)
    ensures WalkNames(Join(segs), true) == Prefixes(segs[..|segs| - 1])
  {
    SplitJoin(segs);
    assert segs[..|segs|] == segs;
  }

  /** Cutting a longer prefix back to `i` elements gives the `i`-element prefix. */
  lemma TakeOfTake<T>(s: seq<T>, i: nat)
    requires i < |s|
    ensures s[..i + 1][..i] == s[..i]
  {
  }

  /** In task mode the walk over `n::k` visits only `n`. */
  lemma WalkTaskName(n: string, k: string)
    requires IsSegment(n) && IsSegment(k)
    ensures |WalkNames(n + Sep + k, true)| == 1 && WalkNames(n + Sep + k, true)[0] == n
  {
    var segs := [n, k];
    assert Join(segs[..1]) == n;
    assert Join(segs) == n + Sep + k;
    WalkPath(segs);
  }

  /** The walk over a well-formed path visits its `k`-segment prefix. */
  lemma WalkVisitsPrefix(segs: seq<string>, k: int)
    requires IsPath(segs) && 1 <= k <= |segs|
    ensures Join(segs[..k]) in WalkNames(Join(segs), false)
  {
    SplitJoin(segs);
    PrefixAt(segs, k - 1);
    var p := Prefixes(segs);
    assert p[k - 1] in p;
  }

  /** Element `i` of `Prefixes(segs)` joins the first `i + 1` segments. */
  lemma PrefixAt(segs: seq<string>, i: nat)
    requires i < |segs|
    ensures |Prefixes(segs)| == |segs| && Prefixes(segs)[i] == Join(segs[..i + 1])
  {
  }

  /** Whatever holds every name of the walk over a well-formed path holds every prefix of the path. */
  lemma WalkReachesPrefixes<V>(segs: seq<string>, m: map<string, V>)
    requires IsPath(segs) && forall n :: n in WalkNames(Join(segs), false) ==> n in m
    ensures forall k :: 1 <= k <= |segs| ==> Join(segs[..k]) in m
  {
    forall k | 1 <= k <= |segs|
      ensures Join(segs[..k]) in m
    {
      WalkVisitsPrefix(segs, k);
    }
  }
}

=== FILE: results.dfy ===
/** The optional values and results shared by every module of the model. */
module Results {

  /** An optional value: Ruby's `nil` is `None`. */
  datatype Option<+T> = None | Some(value: T)

  /** The outcome of an operation that can abort with an error of type `E`. */
  datatype Result<+R, +E> = Success(value: R) | Failure(error: E)
}

=== FILE: scenarios.dfy ===
/**
 * The engine's documented examples, each stated for arbitrary distinct
 * names and values and proved from the general lemmas.
 */
module Scenarios {
  import opened Results
  import opened Paths
  import opened Options
  import opened Tasks
  import opened Namespaces
  import opened Execution
  import opened Engine

  // ---------------------------------------------------------------------
  // Option precedence: outer namespace, inner namespace, task, call
  // ---------------------------------------------------------------------

  /** The tails of a four-element list. */
  lemma Tails<T>(a: T, b: T, c: T, d: T)
    ensures [a, b, c, d][0] == a && [a, b, c, d][1..] == [b, c, d]
    ensures [b, c, d][0] == b && [b, c, d][1..] == [c, d]
    ensures [c, d][0] == c && [c, d][1..] == [d]
    ensures [d][0] == d && [d][1..] == []
  {
  }

  /** Four tiers layered are three merges, each over the result of the previous ones. */
  lemma LayeredFour(t0: OptMap, t1: OptMap, t2: OptMap, t3: OptMap)
    ensures Layered([t0, t1, t2, t3]) == Merge(Merge(Merge(Merge(map[], t0), t1), t2), t3)
  {
    Tails(t0, t1, t2, t3);
    var m0 := Merge(map[], t0);
    var m1 := Merge(m0, t1);
    var m2 := Merge(m1, t2);
    assert Layered([t0, t1, t2, t3]) == LayeredOnto(m0, [t1, t2, t3]);
    assert LayeredOnto(m0, [t1, t2, t3]) == LayeredOnto(m1, [t2, t3]);
    assert LayeredOnto(m1, [t2, t3]) == LayeredOnto(m2, [t3]);
    assert LayeredOnto(m2, [t3]) == LayeredOnto(Merge(m2, t3), []);
  }

  /**
   * Five distinct keys: `a` set by the outer namespace only, `b` also by
   * the inner one, `c` by inner namespace and task, `d` by task and call,
   * `e` by all four. Each ends with the value of the last tier setting it.
   */
  lemma PrecedenceExample(a: string, b: string, c: string, d: string, e: string, outer: Value, inner: Value, task: Value, call: Value)
    requires a != b && a != c && a != d && a != e && b != c && b != d && b != e && c != d && c != e && d != e
    ensures var r := Layered([map[a := outer, b := outer, e := outer],
                              map[b := inner, c := inner, e := inner],
                              map[c := task, d := task, e := task],
                              map[d := call, e := call]]);
            && r.Keys == {a, b, c, d, e}
            && r[a] == outer && r[b] == inner && r[c] == task && r[d] == call && r[e] == call
  {
    var t0 := map[a := outer, b := outer, e := outer];
    var t1 := map[b := inner, c := inner, e := inner];
    var t2 := map[c := task, d := task, e := task];
    var t3 := map[d := call, e := call];
    LayeredFour(t0, t1, t2, t3);
    PrecedenceKeys(a, b, c, d, e, t0, t1, t2, t3);
    PrecedenceValues(a, b, c, d, e, outer, inner, task, call, t0, t1, t2, t3);
  }

  /** The keys of the four tiers of the example are the five keys. */
  lemma PrecedenceKeys(a: string, b: string, c: string, d: string, e: string, t0: OptMap, t1: OptMap, t2: OptMap, t3: OptMap)
    requires t0.Keys == {a, b, e} && t1.Keys == {b, c, e} && t2.Keys == {c, d, e} && t3.Keys == {d, e}
    ensures Merge(Merge(Merge(Merge(map[], t0), t1), t2), t3).Keys == {a, b, c, d, e}
  {
  }

  /** After four merges a key holds the value of the last tier that has it. */
  lemma LastOfFour(t0: OptMap, t1: OptMap, t2: OptMap, t3: OptMap, k: string)
    requires k in t0 || k in t1 || k in t2 || k in t3
    ensures var r := Merge(Merge(Merge(Merge(map[], t0), t1), t2), t3);
            && k in r
            && r[k] == if k in t3 then t3[k] else if k in t2 then t2[k] else if k in t1 then t1[k] else t0[k]
  {
  }

  /** Each of the five keys takes the value of the last tier setting it. */
  lemma PrecedenceValues(a: string, b: string, c: string, d: string, e: string, outer: Value, inner: Value, task: Value, call: Value,
                         t0: OptMap, t1: OptMap, t2: OptMap, t3: OptMap)
    requires a != b && a != c && a != d && a != e && b != c && b != d && b != e && c != d && c != e && d != e
    requires t0 == map[a := outer, b := outer, e := outer]
    requires t1 == map[b := inner, c := inner, e := inner]
    requires t2 == map[c := task, d := task, e := task]
    requires t3 == map[d := call, e := call]
    ensures var r := Merge(Merge(Merge(Merge(map[], t0), t1), t2), t3);
            && a in r && b in r && c in r && d in r && e in r
            && r[a] == outer && r[b] == inner && r[c] == task && r[d] == call && r[e] == call
  {
    assert a in t0 && a !in t1 && a !in t2 && a !in t3 && t0[a] == outer;
    assert b in t1 && b !in t2 && b !in t3 && t1[b] == inner;
    assert c in t2 && c !in t3 && t2[c] == task;
    assert d in t3 && t3[d] == call && e in t3 && t3[e] == call;
    LastOfFour(t0, t1, t2, t3, a);
    LastOfFour(t0, t1, t2, t3, b);
    LastOfFour(t0, t1, t2, t3, c);
    LastOfFour(t0, t1, t2, t3, d);
    LastOfFour(t0, t1, t2, t3, e);
  }

  // ---------------------------------------------------------------------
  // Lookup order
  // ---------------------------------------------------------------------

  function Leaf(name: string, ns: string): Task
  {
    NewTask(name, ns, map[], true)
  }

  /** Tasks `o::i::m`, `i::m` and `i::x`, with their namespaces. */
  function LookupRegistry(o: string, i: string, m: string, x: string): Registry
  {
    map[
      o := Namespace(o, OptionSet(map[]), map[]),
      o + Sep + i := Namespace(o + Sep + i, OptionSet(map[]), map[m := Leaf(m, o + Sep + i)]),
      i := Namespace(i, OptionSet(map[]), map[m := Leaf(m, i), x := Leaf(x, i)])
    ]
  }

  /** Four well-formed segments, the two namespaces and the two task names distinct. */
  predicate Distinct(o: string, i: string, m: string, x: string) {
    IsSegment(o) && IsSegment(i) && IsSegment(m) && IsSegment(x) && o != i && m != x
  }

  lemma RegistryShape(o: string, i: string, m: string, x: string)
    requires Distinct(o, i, m, x)
    ensures var reg := LookupRegistry(o, i, m, x);
            && o + Sep + i in reg && reg[o + Sep + i].tasks == map[m := Leaf(m, o + Sep + i)]
            && i in reg && reg[i].tasks == map[m := Leaf(m, i), x := Leaf(x, i)]
  {
    var oi := o + Sep + i;
    assert |oi| > |o| && |oi| > |i|;
  }

  /** Inside `o`, `i::m` finds the relative task `o::i::m` although `i::m` exists too. */
  lemma RelativeFirst(o: string, i: string, m: string, x: string)
    requires Distinct(o, i, m, x)
    ensures TaskLookup(LookupRegistry(o, i, m, x), [o], i + Sep + m) == Some(Leaf(m, o + Sep + i))
  {
    var reg := LookupRegistry(o, i, m, x);
    var oi := o + Sep + i;
    var n := i + Sep + m;
    RegistryShape(o, i, m, x);
    assert n[0] == i[0];
    assert !StartsWithSep(n);
    NoColonSimple(m);
    assert o + Sep + n == oi + Sep + m;
    FindTaskQualified(reg, oi, m);
  }

  /** Inside `o`, `i::x` has no relative match and falls back to the absolute `i::x`. */
  lemma AbsoluteFallback(o: string, i: string, m: string, x: string)
    requires Distinct(o, i, m, x)
    ensures TaskLookup(LookupRegistry(o, i, m, x), [o], i + Sep + x) == Some(Leaf(x, i))
  {
    var reg := LookupRegistry(o, i, m, x);
    var oi := o + Sep + i;
    var n := i + Sep + x;
    RegistryShape(o, i, m, x);
    assert n[0] == i[0];
    assert !StartsWithSep(n);
    NoColonSimple(x);
    assert o + Sep + n == oi + Sep + x;
    FindTaskQualified(reg, oi, x);
    FindTaskQualified(reg, i, x);
  }

  /** Inside `o`, `::i::m` skips the relative candidate and finds the absolute `i::m`. */
  lemma AbsoluteMarker(o: string, i: string, m: string, x: string)
    requires Distinct(o, i, m, x)
    ensures TaskLookup(LookupRegistry(o, i, m, x), [o], Sep + i + Sep + m) == Some(Leaf(m, i))
  {
    var reg := LookupRegistry(o, i, m, x);
    var n := Sep + i + Sep + m;
    RegistryShape(o, i, m, x);
    assert StartsWithSep(n);
    assert n[2..] == i + Sep + m;
    NoColonSimple(m);
    FindTaskQualified(reg, i, m);
  }

  /**
   * Option gathering walks the name as called, not the task's namespace:
   * the relative call `i::m` inside `o` runs `o::i::m` but collects the
   * options of namespace `i` only.
   */
  lemma GatherWalksCallName(o: string, i: string, m: string, x: string)
    requires Distinct(o, i, m, x)
    ensures |WalkNames(i + Sep + m, true)| == 1 && WalkNames(i + Sep + m, true)[0] == i
    ensures TaskLookup(LookupRegistry(o, i, m, x), [o], i + Sep + m) == Some(Leaf(m, o + Sep + i))
  {
    WalkTaskName(i, m);
    RelativeFirst(o, i, m, x);
  }

  // ---------------------------------------------------------------------
  // Filters given as nested arrays
  // ---------------------------------------------------------------------

  /** Filter names given singly and as nested arrays are flattened in order. */
  lemma FlattenExample(a: string, b: string, c: string)
    ensures Flatten([Name(a), Group([Name(b), Group([Name(c)])])]) == [a, b, c]
  {
    var inner := [Group([Name(c)])];
    assert Flatten([Name(c)]) == [c];
    assert Flatten(inner) == [c];
    FlattenAppend([Name(b)], inner);
    assert [Name(b), Group([Name(c)])] == [Name(b)] + inner;
    FlattenAppend([Name(a)], [Group([Name(b), Group([Name(c)])])]);
    assert [Name(a), Group([Name(b), Group([Name(c)])])] == [Name(a)] + [Group([Name(b), Group([Name(c)])])];
  }
}

=== FILE: tasks.dfy ===
/**
 * `Tasking::Task` as a value: its name, owning namespace, declared options,
 * whether it has a body, and its before/after filter name lists.
 */
module Tasks {
  import opened Paths
  import opened Options

  /** A filter argument: a name, or an array of arguments (arrays nest). */
  datatype FilterRef = Name(name: string) | Group(refs: seq<FilterRef>)

  datatype FilterKind = BeforeFilter | AfterFilter

  /**
   * A task. `ns` is the name of its parent namespace; the task body is
   * abstract and only present or absent.
   */
  datatype Task = Task(
    name: string,
    ns: string,
    options: OptMap,
    hasBody: bool,
    before: seq<string>,
    after: seq<string>)

  /** Ruby's `Array#flatten` on filter arguments: every name, in order, at any depth. */
  function Flatten(refs: seq<FilterRef>): seq<string>
    decreases refs
  {
    if |refs| == 0 then []
    else FlattenOne(refs[0]) + Flatten(refs[1..])
  }

  function FlattenOne(ref: FilterRef): seq<string>
    decreases ref
  {
    match ref
    case Name(n) => [n]
    case Group(rs) => Flatten(rs)
  }

  /** Plain names as filter arguments. */
  function Names(xs: seq<string>): (r: seq<FilterRef>)
    ensures |r| == |xs|
    ensures forall i :: 0 <= i < |xs| ==> r[i] == Name(xs[i])
  {
    seq(|xs|, i requires 0 <= i < |xs| => Name(xs[i]))
  }

  lemma {:induction false} FlattenAppend(a: seq<FilterRef>, b: seq<FilterRef>)
    ensures Flatten(a + b) == Flatten(a) + Flatten(b)
    decreases |a|
  {
    if |a| > 0 {
      assert (a + b)[0] == a[0];
      assert (a + b)[1..] == a[1..] + b;
      FlattenAppend(a[1..], b);
    } else {
      assert a + b == b;
    }
  }

  /** Flattening plain names gives back the names, so flattening twice changes nothing. */
  lemma {:induction false} FlattenNames(xs: seq<string>)
    ensures Flatten(Names(xs)) == xs
    decreases |xs|
  {
    if |xs| > 0 {
      assert Names(xs)[1..] == Names(xs[1..]);
      FlattenNames(xs[1..]);
    }
  }

  /** A new task: the given name, namespace, options and body, and no filters yet. */
  function NewTask(name: string, ns: string, options: OptMap, hasBody: bool): (t: Task)
    ensures t.name == name && t.ns == ns && t.options == options && t.hasBody == hasBody
    ensures t.before == [] && t.after == []
  {
    Task(name, ns, options, hasBody, [], [])
  }

  /** The filter list of the given kind. */
  function Filters(t: Task, kind: FilterKind): seq<string>
  {
    match kind
    case BeforeFilter => t.before
    case AfterFilter => t.after
  }

  /**
   * `add_before_filters` / `add_after_filters`: the flattened names are
   * appended to the list of that kind; nothing is removed and nothing else
   * changes.
   */
  function AddFilters(t: Task, kind: FilterKind, refs: seq<FilterRef>): (r: Task)
    ensures Filters(r, kind) == Filters(t, kind) + Flatten(refs)
    ensures kind.BeforeFilter? ==> r.after == t.after
    ensures kind.AfterFilter? ==> r.before == t.before
    ensures r.name == t.name && r.ns == t.ns && r.options == t.options && r.hasBody == t.hasBody
  {
    match kind
    case BeforeFilter => t.(before := t.before + Flatten(refs))
    case AfterFilter => t.(after := t.after + Flatten(refs))
  }

  /** Adding filters in two calls is adding them in one, in call order. */
  lemma AddFiltersTwice(t: Task, kind: FilterKind, a: seq<FilterRef>, b: seq<FilterRef>)
    ensures AddFilters(AddFilters(t, kind, a), kind, b) == AddFilters(t, kind, a + b)
  {
    FlattenAppend(a, b);
  }

  /** The name a body records: the owning namespace's name, `::`, the task's name. */
  function Qualified(t: Task): string
  {
    t.ns + Sep + t.name
  }
}
